=== FILE: README.md ===
# Taxii2Client request and response core, in Dafny

A model of the Swift TAXII 2.0/2.1 client library Taxii2Client. Its core is
the `TaxiiConnect` base class and its `TaxiiConnection` subclass, plus the
endpoint classes `Server`, `ApiRoot`, `Collections`, `Collection` and `Status`
that build on them, plus the protocol resources of `TaxiiProtocol.swift`.

- `TaxiiConnect` holds the connection settings. It normalises the host, picks
  the STIX and TAXII media types from the TAXII version, and builds the base
  URL and the basic-authentication hash.
- `TaxiiConnection` turns a path, a header type and optional URL filters
  into a `GET` or `POST` request. It then interprets the HTTP outcome:
  401, 403, 404, 405–499 and 500–599 become `APIError`s, and any other
  answer is decoded.
- Each endpoint class is a set of path rules over an API root, and each of
  its methods issues one such request, except the server's `getApiroots`,
  which sends the discovery request and then one request per API root.

Each Swift file becomes one module. A request is a `Request` value
(method, path, query parameters, headers, body). An endpoint method is a
`Call`: the request it sends plus the resource type it decodes the answer as.
The Combine publishers are replaced by the outcome values they deliver. The
helper modules model the Foundation behaviour the core relies on:

- `Text`: trimming, ASCII lower-casing, joining and splitting on a
  separator, and the `+` to `%2B` rewrite of a query.
- `Decimal`: `String(Int)`, `Int(String)` and `UInt64(String)`.
- `Utf8`: the UTF-8 encoding of a string.
- `Base64`: the padded base 64 of section 4 of RFC 4648.

Modules, in dependency order: `Wrappers` (Option, Result, Byte), `Text`,
`Decimal`, `Utf8`, `Base64`, `TaxiiConnect`, `TaxiiProtocol`,
`TaxiiConnection`, `CollectionEndpoint`, `CollectionsEndpoint`,
`StatusEndpoint`, `ApiRootEndpoint`, `ServerEndpoint`.

The library has several surprising behaviours. The model keeps each of them
as written and proves it as a lemma:

- **400 and 402 are successes.** The status checks skip 400 and 402, so
  those answers are decoded like a 200.
- **`headerType` picks STIX for 1.** The doc comment says 0 means STIX and
  1 means TAXII, but the code selects the STIX media type exactly when
  `headerType == 1`.
- **`withoutLastSlash` is not idempotent.** It removes only one slash, and
  when there is none it returns the untrimmed input.
- **`getObjects` doubles the `objects/` segment.** The base path already
  ends in `/objects/`, and `getObjects` appends `objects/` to it again.
  `deleteObject` does the same.
- **`deleteObject` sends a `GET`.** It is not a `DELETE`.
- **`getManifests` uses the wrong path.** It requests `.../objects/manifest/`
  instead of `.../manifest/`.
- **Empty filter lists still filter.** An empty filter list becomes a
  present, empty `match[...]` value. A filters value with nothing set still
  selects the TAXII media type, where no filters at all selects STIX.
- **A nil discovery resource ends differently.** It gives no API-root
  strings, but the stream of API roots finishes without a value.
- **`addObjects` never posts.** It hands the bundle or envelope struct to
  `JSONSerialization`, which refuses anything but an array or dictionary
  with an exception `try?` cannot catch. This one is recorded under
  "## Findings": the as-written version traps, and the endpoint function
  the rest of the model uses sends the request the authors evidently meant.
- **Resource equality compares only the `id`.** Several resources take a
  fresh UUID as their `id` when they are decoded, so a decoded copy never
  equals the original.

## Model

| member | source | states |
|---|---|---|
| `TaxiiConnect.ErrorDescription` | Sources/Taxii2Client/TaxiiConnect.swift:16-29 | every error has a description; `unknown` gives "Unknown error", api and parser errors give their reason, network errors the URL error's text |
| `TaxiiConnect.DescriptionsOverlap` | Sources/Taxii2Client/TaxiiConnect.swift:20-27 | the description does not identify the case: `apiError("Unknown error")` reads like `unknown`, and an api and a parser error with one reason read alike |
| `TaxiiConnect.WithLastSlash` | Sources/Taxii2Client/TaxiiConnect.swift:101-103 | the result is trimmed and ends in `/`; it is the trimmed input when that already ends in `/`, else the trimmed input plus `/` |
| `TaxiiConnect.WithLastSlashIdempotent` | Sources/Taxii2Client/TaxiiConnect.swift:101-103 | adding the last slash twice is adding it once |
| `TaxiiConnect.WithoutLastSlash` | Sources/Taxii2Client/TaxiiConnect.swift:96-98 | when the trimmed input ends in `/`, the result plus `/` is the trimmed input; otherwise the input is returned untouched, untrimmed |
| `TaxiiConnect.WithoutUndoesWith` | Sources/Taxii2Client/TaxiiConnect.swift:96-103 | on a trimmed url without a final slash, removing the slash that `withLastSlash` added gives the url back |
| `TaxiiConnect.WithoutLastSlashNotIdempotent` | Sources/Taxii2Client/TaxiiConnect.swift:96-98 | `"a//"` loses one slash per call, and `" a "` keeps its spaces because nothing is removed |
| `TaxiiConnect.MediaFor` | Sources/Taxii2Client/TaxiiConnect.swift:72-78 | the 2.1 media types exactly when the trimmed version is `2.1`, the 2.0 `vnd.oasis` types for every other version |
| `TaxiiConnect.MediaTypesDistinct` | Sources/Taxii2Client/TaxiiConnect.swift:73-77 | the four media type strings are pairwise different |
| `TaxiiConnect.Connect` | Sources/Taxii2Client/TaxiiConnect.swift:62-85 | the host is stored without its last slash, the other settings as given, and the media types follow the version |
| `TaxiiConnect.ConnectDefaults` | Sources/Taxii2Client/TaxiiConnect.swift:62-63 | with the default port, protocol and version the media types are 2.0 and the base URL is `https://` plus the trimmed host, with no port |
| `TaxiiConnect.VersionNot21` | Sources/Taxii2Client/TaxiiConnect.swift:72 | a version string with digits at both ends that does not end in `1` is never taken for 2.1 |
| `TaxiiConnect.PortString` | Sources/Taxii2Client/TaxiiConnect.swift:105-107 | empty exactly for port -1; otherwise `:` followed by the port's canonical decimal numeral, which parses back to the port |
| `TaxiiConnect.PortStringOfNumeral` | Sources/Taxii2Client/TaxiiConnect.swift:105-107 | a port other than -1 is written as `:` and its numeral |
| `TaxiiConnect.PortString8080` | Sources/Taxii2Client/TaxiiConnect.swift:105-107 | port 8080 is written `:8080` |
| `TaxiiConnect.NumeralIsTrimmed` | Sources/Taxii2Client/TaxiiConnect.swift:106 | the decimal form of a port has no surrounding white space, so the `trim()` on it changes nothing |
| `TaxiiConnect.ProtocolValue` | Sources/Taxii2Client/TaxiiConnect.swift:109-111 | the trimmed protocol, less one final `:` when it has one |
| `TaxiiConnect.HttpsScheme` | Sources/Taxii2Client/TaxiiConnect.swift:109-114 | the default protocol `https` gives the scheme `https` |
| `TaxiiConnect.ProtocolValueOneColon` | Sources/Taxii2Client/TaxiiConnect.swift:109-111 | surrounding spaces and one final colon are removed; of two final colons only one is removed |
| `TaxiiConnect.BaseURL` | Sources/Taxii2Client/TaxiiConnect.swift:113-115 | the base URL splits into the lowered protocol value, `://`, the trimmed host and the port string, each of which can be cut back out |
| `TaxiiConnect.BaseURLPorts` | Sources/Taxii2Client/TaxiiConnect.swift:105-115 | over `https`, host `example.com` gives `https://example.com` without a port and `https://example.com:8080` with port 8080 |
| `TaxiiConnect.HttpsBaseURL` | Sources/Taxii2Client/TaxiiConnect.swift:113-115 | whenever the lowered scheme is `https`, the base URL is `https://`, the trimmed host and the port string |
| `TaxiiConnect.BaseURLNormalisesScheme` | Sources/Taxii2Client/TaxiiConnect.swift:109-115 | the protocol `HTTPS:` gives the same base URL as `https` |
| `TaxiiConnect.BaseURLExample` | Sources/Taxii2Client/TaxiiConnect.swift:62-65 | the base URL of an `https` connection is `https://`, then the host trimmed of its last slash and of white space, then the port string |
| `TaxiiConnect.Hash` | Sources/Taxii2Client/TaxiiConnect.swift:117-120 | the hash is base 64 text that decodes to the UTF-8 bytes of `user:password` |
| `TaxiiConnect.HashRecoversCredentials` | Sources/Taxii2Client/TaxiiConnect.swift:117-120 | decoding the hash as base 64 and then UTF-8 gives `user:password` back, and for a user without `:` the part before the first colon is the user |
| `Text.Trim` | Sources/Taxii2Client/TaxiiConnect.swift:32-36 | the result has no white space at either end, is no longer than the input, and is the input itself when that is already trimmed |
| `Text.TrimSurrounded` | Sources/Taxii2Client/TaxiiConnect.swift:32-36 | trimming removes exactly the white space around a trimmed non-empty core |
| `Text.TrimIdempotent` | Sources/Taxii2Client/TaxiiConnect.swift:32-36 | trimming twice is trimming once |
| `Text.TrimStart` | Sources/Taxii2Client/TaxiiConnect.swift:34 | a suffix of the input, starting at a non-space, after only white space |
| `Text.TrimEnd` | Sources/Taxii2Client/TaxiiConnect.swift:34 | a prefix of the input, ending at a non-space, before only white space |
| `Text.Lower` | Sources/Taxii2Client/TaxiiConnect.swift:114 | same length; no upper-case letter remains; an upper-case letter becomes its lower-case letter and every other character is kept |
| `Text.LowerIdempotent` | Sources/Taxii2Client/TaxiiConnect.swift:114 | lowering twice is lowering once |
| `Text.Join` | Sources/Taxii2Client/TaxiiProtocol.swift:304-315 | no items join to the empty string and one item to itself; with `Text.JoinAppend` (two non-empty lists join to their joins with one separator between) this fixes its value on every list; `Text.JoinSplit` and `Text.SplitJoin` relate it to splitting, which recovers every non-empty list of separator-free items |
| `Text.JoinAppend` | Sources/Taxii2Client/TaxiiProtocol.swift:304-315 | joining the concatenation of two non-empty lists is joining each and putting one separator between the two joins |
| `Text.JoinLayout` | Sources/Taxii2Client/TaxiiProtocol.swift:304-315 | a join of several items starts with the first item and then the separator, and has the items' total length plus one separator between each two |
| `Text.Split` | Sources/Taxii2Client/TaxiiProtocol.swift:304-315 | at least one piece, and no piece contains the separator |
| `Text.JoinSplit` | Sources/Taxii2Client/TaxiiProtocol.swift:304-315 | joining the pieces of a split with the same separator gives the string back |
| `Text.SplitJoin` | Sources/Taxii2Client/TaxiiProtocol.swift:304-315 | splitting a non-empty join of separator-free strings gives the list back |
| `Text.EscapePlus` | Sources/Taxii2Client/TaxiiConnection.swift:60 | no `+` remains, a string without `+` is unchanged, and nothing gets shorter |
| `Text.EscapePlusIdempotent` | Sources/Taxii2Client/TaxiiConnection.swift:60 | the rewrite applied twice is the rewrite applied once |
| `Text.EscapePlusInvertible` | Sources/Taxii2Client/TaxiiConnection.swift:60 | on a query that holds no `%2B` of its own, reading `%2B` back as `+` undoes the rewrite |
| `Text.LessIrreflexive` | Sources/Taxii2Client/TaxiiProtocol.swift:78-80 | no id sorts before itself |
| `Text.LessTransitive` | Sources/Taxii2Client/TaxiiProtocol.swift:78-80 | the id order is transitive |
| `Text.LessTotal` | Sources/Taxii2Client/TaxiiProtocol.swift:78-80 | of two different ids one sorts before the other |
| `Text.StartsWithAppend` | Sources/Taxii2Client/Collection.swift:32-33 | extending a path keeps every prefix it had |
| `Decimal.DigitChar` | Sources/Taxii2Client/TaxiiConnect.swift:106 | a digit character with the value asked for |
| `Decimal.FromNat` | Sources/Taxii2Client/TaxiiConnect.swift:106 | a non-empty all-digit numeral with the value given and no leading zero |
| `Decimal.FromInt` | Sources/Taxii2Client/TaxiiProtocol.swift:301 | a canonical numeral (optional `-`, digits, no leading zero, no `-0`) that parses back to the number, starting with `-` exactly for a negative number |
| `Decimal.FromNatValue` | Sources/Taxii2Client/TaxiiConnect.swift:106 | digits without a leading zero are the rendering of their own value |
| `Decimal.FromIntParseInt` | Sources/Taxii2Client/TaxiiConnect.swift:106 | every canonical numeral is the rendering of the integer it denotes, so the rendering is the only numeral for a number |
| `Decimal.FromInt8080` | Sources/Taxii2Client/TaxiiConnect.swift:106 | 8080 is rendered `8080` |
| `Decimal.ParseUInt64` | Sources/Taxii2Client/TaxiiProtocol.swift:34 | the signed numeral's value when it lies in 0..UInt64.max, and nil otherwise: for a negative value, a value past the maximum or a non-numeral |
| `Decimal.ParseUInt64Examples` | Sources/Taxii2Client/TaxiiProtocol.swift:34 | `+7` reads 7, `-0` reads 0; `-1`, UInt64.max + 1, `7a` and the empty string read nil |
| `Decimal.ParseUInt64FromNat` | Sources/Taxii2Client/TaxiiProtocol.swift:34 | every UInt64 reads back from its decimal form |
| `Decimal.ParseIntFromInt` | Sources/Taxii2Client/TaxiiProtocol.swift:301 | every integer reads back from its decimal form |
| `Utf8.EncodeChar` | Sources/Taxii2Client/TaxiiConnect.swift:118 | one to four bytes, and one byte exactly for ASCII |
| `Utf8.Encode` | Sources/Taxii2Client/TaxiiConnect.swift:118 | at least one byte per character |
| `Utf8.DecodeFirst` | Sources/Taxii2Client/TaxiiConnect.swift:118 | a decoded character consumes between one byte and what is left |
| `Utf8.DecodeFirstEncodeChar` | Sources/Taxii2Client/TaxiiConnect.swift:118 | the first character decoded from a character's encoding, followed by anything, is that character, consuming exactly its bytes |
| `Utf8.DecodeEncode` | Sources/Taxii2Client/TaxiiConnect.swift:118 | decoding the UTF-8 of a string gives the string |
| `Utf8.EncodeCharDecodeFirst` | Sources/Taxii2Client/TaxiiConnect.swift:118 | the bytes a character decodes from are exactly that character's encoding |
| `Utf8.EncodeDecode` | Sources/Taxii2Client/TaxiiConnect.swift:118 | bytes that decode are the encoding of what they decode to, so the encoding is canonical |
| `Base64.Char` | Sources/Taxii2Client/TaxiiConnect.swift:119 | the alphabet character of a sextet maps back to that sextet |
| `Base64.Index` | Sources/Taxii2Client/TaxiiConnect.swift:119 | an alphabet character stands for a sextet |
| `Base64.CharOfIndex` | Sources/Taxii2Client/TaxiiConnect.swift:119 | the character of an alphabet character's sextet is that character |
| `Base64.Encode` | Sources/Taxii2Client/TaxiiConnect.swift:119 | four characters for every started group of three octets |
| `Base64.Quad` | Sources/Taxii2Client/TaxiiConnect.swift:119 | a decoded group is three octets |
| `Base64.DecodeOneOctet` | Sources/Taxii2Client/TaxiiConnect.swift:119 | a single octet survives the two-pad encoding |
| `Base64.DecodeTwoOctets` | Sources/Taxii2Client/TaxiiConnect.swift:119 | two octets survive the one-pad encoding |
| `Base64.QuadOfBlock` | Sources/Taxii2Client/TaxiiConnect.swift:119 | three octets survive the encoding of a full group, whether it is last or not |
| `Base64.DecodeEncode` | Sources/Taxii2Client/TaxiiConnect.swift:119 | decoding an encoding gives the octets back |
| `Base64.BlockOfQuad` | Sources/Taxii2Client/TaxiiConnect.swift:119 | a full group the decoder accepts is the encoding of its octets |
| `Base64.EncodeLastQuad` | Sources/Taxii2Client/TaxiiConnect.swift:119 | a last group the decoder accepts, padded or not, is the encoding of its octets |
| `Base64.EncodeDecode` | Sources/Taxii2Client/TaxiiConnect.swift:119 | every accepted text is the encoding of what it decodes to |
| `TaxiiConnection.MethodName` | Sources/Taxii2Client/TaxiiConnection.swift:32 | the method name is `GET` exactly for a fetch, and `POST` for a post |
| `TaxiiConnection.SelectMedia` | Sources/Taxii2Client/TaxiiConnection.swift:29 | header type 1 selects the STIX media type, every other value the TAXII one |
| `TaxiiConnection.DefaultHeaderTypeIsTaxii` | Sources/Taxii2Client/TaxiiConnection.swift:23-29 | the default header type 0 selects the TAXII media type, not STIX as the doc comment says, and STIX is selected exactly for 1 |
| `TaxiiConnection.Authorization` | Sources/Taxii2Client/TaxiiConnection.swift:34 | the header is `Basic ` followed by base 64 text that decodes to the UTF-8 of `user:password` |
| `TaxiiConnection.HeaderNamesDistinct` | Sources/Taxii2Client/TaxiiConnection.swift:33-36 | the four header names are different, so no header overwrites another |
| `TaxiiConnection.FetchThis` | Sources/Taxii2Client/TaxiiConnection.swift:27-39 | a `GET` of the path with no query, carrying the version, the authorization and the selected media type as Accept and Content-Type |
| `TaxiiConnection.FetchThisWithFilters` | Sources/Taxii2Client/TaxiiConnection.swift:51-70 | the same `GET`, with the filters' parameters as its query |
| `TaxiiConnection.PostThis` | Sources/Taxii2Client/TaxiiConnection.swift:80-92 | a `POST` of the path with the JSON data as body, accepting TAXII and sending STIX |
| `TaxiiConnection.FetchRaw` | Sources/Taxii2Client/TaxiiConnection.swift:103-113 | the same `GET` as a fetch without filters |
| `TaxiiConnection.GetAndPostHeaders` | Sources/Taxii2Client/TaxiiConnection.swift:27-92 | fetch and post send the same authorization; a post's content type is a header-type-1 fetch's and its Accept a header-type-0 fetch's |
| `TaxiiConnection.QueryItems` | Sources/Taxii2Client/TaxiiConnection.swift:57-59 | one query item per parameter, each with its own value, and every parameter appears |
| `TaxiiConnection.OrderCoversKeys` | Sources/Taxii2Client/TaxiiConnection.swift:57-59 | an iteration order of the dictionary lists every key |
| `TaxiiConnection.ListedCount` | Sources/Taxii2Client/TaxiiConnection.swift:57-59 | a list without repeats has as many distinct entries as places |
| `TaxiiConnection.PercentEncodedQuery` | Sources/Taxii2Client/TaxiiConnection.swift:56-60 | the query sent has no `+`, and when the encoder left no `%2B` of its own, reading `%2B` as `+` recovers the encoded query |
| `TaxiiConnection.QueryRewriteIdempotent` | Sources/Taxii2Client/TaxiiConnection.swift:60 | rewriting the sent query again changes nothing |
| `TaxiiConnection.StatusError` | Sources/Taxii2Client/TaxiiConnection.swift:158-172 | an api error exactly for 401, 403, 404 and 405–599: "Unauthorized" for 401, "Resource forbidden" for 403, "Resource not found" for 404, "client error" for 405–499 and "server error" for 500–599 |
| `TaxiiConnection.CheckResponse` | Sources/Taxii2Client/TaxiiConnection.swift:155-172 | a response that is not HTTP is `unknown`; otherwise the status code decides |
| `TaxiiConnection.MapError` | Sources/Taxii2Client/TaxiiConnection.swift:175-186 | an APIError passes through, a URL error becomes a network error, anything else is `unknown` |
| `TaxiiConnection.InterpretRaw` | Sources/Taxii2Client/TaxiiConnection.swift:114-149 | success exactly when data came back with an accepted status, and then the value is that data; a rejected response fails with the error of its check, a transport failure with a network error |
| `TaxiiConnection.Interpret` | Sources/Taxii2Client/TaxiiConnection.swift:152-189 | success exactly when data came back with an accepted status, and then the value is what the decoder makes of the data, nil included; a rejected response fails with the error of its check, a transport failure with a network error |
| `TaxiiConnection.TypedAndRawAgree` | Sources/Taxii2Client/TaxiiConnection.swift:103-189 | the raw and the typed fetch fail on the same outcomes with the same error, and on success the typed value decodes the raw data |
| `TaxiiConnection.StatusClasses` | Sources/Taxii2Client/TaxiiConnection.swift:158-172 | every 5xx is a server error; among the 4xx codes, exactly 400 and 402 succeed; codes outside 4xx and 5xx succeed |
| `TaxiiConnection.SuccessCodes` | Sources/Taxii2Client/TaxiiConnection.swift:158-173 | 200, the 3xx codes, 400, 402 and codes from 600 deliver their data |
| `TaxiiConnection.ReasonsDistinct` | Sources/Taxii2Client/TaxiiConnection.swift:158-172 | the five failure reasons are different texts |
| `TaxiiConnection.ReasonIdentifiesStatus` | Sources/Taxii2Client/TaxiiConnection.swift:158-172 | each reason is given for exactly its codes: 401, 403, 404, the other 4xx codes but 400 and 402, and the 5xx codes |
| `TaxiiConnection.ErrorsDescribed` | Sources/Taxii2Client/TaxiiConnection.swift:136-147 | every failure has a description: the URL error's text for a transport failure, "Unknown error" for a response that is not HTTP |
| `TaxiiProtocol.Truncated` | Sources/Taxii2Client/TaxiiProtocol.swift:31 | truncation toward zero: the largest multiple below a positive number, the smallest above a negative one |
| `TaxiiProtocol.TruncatedIntegral` | Sources/Taxii2Client/TaxiiProtocol.swift:29-31 | on an exact quotient truncation is plain division |
| `TaxiiProtocol.DecodeTaxiiInt` | Sources/Taxii2Client/TaxiiProtocol.swift:25-38 | only numbers and strings decode; a number decodes to its truncation when that fits UInt64 and traps otherwise; a string always decodes, to the value `UInt64(String)` reads from it, or to 0 when that reads nothing |
| `TaxiiProtocol.EncodeTaxiiInt` | Sources/Taxii2Client/TaxiiProtocol.swift:40-43 | the value is written as a non-negative number |
| `TaxiiProtocol.TaxiiIntRoundTrip` | Sources/Taxii2Client/TaxiiProtocol.swift:25-43 | decoding an encoded value gives it back |
| `TaxiiProtocol.TaxiiIntSignedAndPadded` | Sources/Taxii2Client/TaxiiProtocol.swift:33-34 | the strings `+7` and `007` decode to 7, and `-0` to 0 |
| `TaxiiProtocol.TaxiiIntFromString` | Sources/Taxii2Client/TaxiiProtocol.swift:33-34 | a value written as a decimal string decodes as the number does |
| `TaxiiProtocol.TaxiiIntLenient` | Sources/Taxii2Client/TaxiiProtocol.swift:29-34 | a non-numeral string gives 0, a negative integer traps, and a negative fraction above -1 gives 0 |
| `TaxiiProtocol.TaxiiIntTruncates` | Sources/Taxii2Client/TaxiiProtocol.swift:31 | 42.9 decodes as 42 |
| `TaxiiProtocol.IdOrder` | Sources/Taxii2Client/TaxiiProtocol.swift:74-80 | the order on ids that every resource's `<` uses is a strict total order: exactly one of `a < b`, `a == b`, `b < a` |
| `TaxiiProtocol.DiscoveryIdOrder` | Sources/Taxii2Client/TaxiiProtocol.swift:74-80 | `<` on discovery resources is a strict total order consistent with the id-only `==`: equal resources precede each other in neither direction; the other resource types define `==` and `<` by the same two lines |
| `TaxiiProtocol.CollectionEqualityIgnoresContent` | Sources/Taxii2Client/TaxiiProtocol.swift:209-211 | a collection equals any copy with other content but its id, and no copy with another id |
| `TaxiiProtocol.DiscoveryKey` | Sources/Taxii2Client/TaxiiProtocol.swift:70-72 | the JSON key `default` belongs to the `default_api` property alone |
| `TaxiiProtocol.DiscoveryFieldOf` | Sources/Taxii2Client/TaxiiProtocol.swift:70-72 | a key maps only to the property whose key it is |
| `TaxiiProtocol.DiscoveryKeysBijective` | Sources/Taxii2Client/TaxiiProtocol.swift:70-72 | keys and properties correspond one to one, and the key `default_api` fills nothing |
| `TaxiiProtocol.Strings` | Sources/Taxii2Client/TaxiiProtocol.swift:60 | a string list is read exactly when every item is a string, and item by item |
| `TaxiiProtocol.DecodeDiscovery` | Sources/Taxii2Client/TaxiiProtocol.swift:53-72 | a decoded resource takes the fresh id and the JSON title, requires an object, and never traps |
| `TaxiiProtocol.EncodeDiscovery` | Sources/Taxii2Client/TaxiiProtocol.swift:53-72 | the JSON object always has a title and only coding keys |
| `TaxiiProtocol.DiscoveryRoundTrip` | Sources/Taxii2Client/TaxiiProtocol.swift:53-76 | decoding an encoded resource gives every property back under the fresh id, and the copy equals the original exactly when that id happens to be the original's |
| `TaxiiProtocol.DiscoveryIgnoresOtherKeys` | Sources/Taxii2Client/TaxiiProtocol.swift:70-72 | a key outside the coding keys does not change the decoding |
| `TaxiiProtocol.EmptyDiscovery` | Sources/Taxii2Client/TaxiiProtocol.swift:55-68 | the empty resource has the fresh id, an empty title, present but empty description, contact and default API root, and an empty, present list of API roots |
| `TaxiiProtocol.EmptyDiscoveryEncoding` | Sources/Taxii2Client/TaxiiProtocol.swift:62-72 | the empty resource writes all five keys and reads back as the empty resource with a new id |
| `TaxiiProtocol.ListParam` | Sources/Taxii2Client/TaxiiProtocol.swift:304-315 | a list parameter is present exactly when the list is |
| `TaxiiProtocol.AsParameters` | Sources/Taxii2Client/TaxiiProtocol.swift:297-318 | only the seven filter names appear, each exactly when its filter is set; `added_after` and `next` are kept as given, the limit is its canonical decimal numeral, and each `match[...]` value is its list joined with `,` in order |
| `TaxiiProtocol.ParametersRoundTrip` | Sources/Taxii2Client/TaxiiProtocol.swift:297-318 | when no list is empty and no item holds a comma, the filters can be read back from the parameters |
| `TaxiiProtocol.EmptyListParameter` | Sources/Taxii2Client/TaxiiProtocol.swift:304-306 | an empty id list still sends `match[id]`, with the empty value, which reads back as one empty id; no filters gives no parameters |
| `TaxiiProtocol.NoFiltersNoParameters` | Sources/Taxii2Client/TaxiiProtocol.swift:297-318 | filters with nothing set give an empty parameter dictionary |
| `CollectionEndpoint.New` | Sources/Taxii2Client/Collection.swift:28-31 | the API root is stored with its last slash, trimmed, and the rest as given |
| `CollectionEndpoint.ThePath` | Sources/Taxii2Client/Collection.swift:32-33 | the API root, then `collections/`, the collection id and `/objects/`, with the id recoverable from its place |
| `CollectionEndpoint.ThePathIsObjectsEndpoint` | Sources/Taxii2Client/Collection.swift:32-33 | the base path is the protocol's objects endpoint of the collection |
| `CollectionEndpoint.SegmentsAgree` | Sources/Taxii2Client/Collection.swift:33 | the `/objects/` segment is a slash and `objects/` |
| `CollectionEndpoint.Fetch` | Sources/Taxii2Client/Collection.swift:41-87 | with filters, a filtered `GET` with the TAXII media type; without, a plain `GET` with the media type the header type selects |
| `CollectionEndpoint.GetBundle` | Sources/Taxii2Client/Collection.swift:37-39 | a `GET` of the base path with the STIX media type, decoded as a bundle |
| `CollectionEndpoint.GetObjects` | Sources/Taxii2Client/Collection.swift:41-47 | a `GET` of the base path plus `objects/`, STIX without filters and TAXII with them, decoded as an envelope |
| `CollectionEndpoint.GetObject` | Sources/Taxii2Client/Collection.swift:49-55 | a `GET` of the base path plus the object id and `/`, decoded as an envelope |
| `CollectionEndpoint.GetObjectVersions` | Sources/Taxii2Client/Collection.swift:57-63 | a `GET` of the base path plus the object id and `/versions/`, decoded as a version resource |
| `CollectionEndpoint.DeleteObject` | Sources/Taxii2Client/Collection.swift:68-74 | a `GET` of the base path plus `objects/`, the object id and `/`, decoded as any JSON |
| `CollectionEndpoint.GetRaw` | Sources/Taxii2Client/Collection.swift:77-79 | the very request of `getBundle`, answered with raw data |
| `CollectionEndpoint.GetManifests` | Sources/Taxii2Client/Collection.swift:81-87 | a `GET` of the base path plus `manifest/` with the TAXII media type in both branches, decoded as a manifest record |
| `CollectionEndpoint.AddObjects` | Sources/Taxii2Client/Collection.swift:90-98 | as intended: a `POST` of `thePath`, Accept TAXII and Content-Type STIX, whose body is the JSON encoding of the bundle or envelope, decoded as a status |
| `CollectionEndpoint.AddObjectsAsWritten` | Sources/Taxii2Client/Collection.swift:90-98 | as written: the program traps when the value handed to `JSONSerialization` is neither an array nor a dictionary (an array or dictionary holding non-JSON values traps as well and is not a separate case here); given an array or dictionary of JSON values it posts the written bytes, or an empty body when serialization throws |
| `CollectionEndpoint.AddObjectsAlwaysTraps` | Sources/Taxii2Client/Collection.swift:91-96 | with the struct both methods pass, the program traps before any request is built |
| `CollectionEndpoint.AddObjectsAgreesOnJsonObjects` | Sources/Taxii2Client/Collection.swift:91-97 | given an array or dictionary of JSON values, the code as written sends what the intended definition sends |
| `CollectionEndpoint.ObjectPathsFollowSpec` | Sources/Taxii2Client/Collection.swift:49-63 | the object and versions paths are the protocol's object and versions endpoints |
| `CollectionEndpoint.GetObjectsDoublesSegment` | Sources/Taxii2Client/Collection.swift:41-47 | `getObjects` requests the object endpoint of an object named `objects`, never the objects endpoint |
| `CollectionEndpoint.ManifestPathUnderObjects` | Sources/Taxii2Client/Collection.swift:81-87 | `getManifests` requests the object endpoint of an object named `manifest`, never the manifest endpoint |
| `CollectionEndpoint.DeleteObjectIsGet` | Sources/Taxii2Client/Collection.swift:68-74 | `deleteObject` issues a `GET`, below the doubled `objects/` segment, never at the object endpoint |
| `CollectionEndpoint.EmptyFiltersStillFilter` | Sources/Taxii2Client/Collection.swift:49-55 | empty filters send an empty query and the TAXII media type, no filters send no query and the STIX one |
| `CollectionEndpoint.PathsUnderThePath` | Sources/Taxii2Client/Collection.swift:37-98 | every request of a collection is below its base path |
| `CollectionsEndpoint.New` | Sources/Taxii2Client/Collections.swift:24-26 | the API root is stored with its last slash |
| `CollectionsEndpoint.ThePath` | Sources/Taxii2Client/Collections.swift:27 | the API root followed by `collections/` |
| `CollectionsEndpoint.Get` | Sources/Taxii2Client/Collections.swift:30-32 | a `GET` of the path with the TAXII media type, decoded as a collections resource |
| `CollectionsEndpoint.At` | Sources/Taxii2Client/Collections.swift:34-36 | an error passes through; the value is present exactly when the resource lists collections, and then it is the element at the index |
| `CollectionsEndpoint.AtEnumerates` | Sources/Taxii2Client/Collections.swift:34-36 | reading every index of a listed resource in turn gives the list back |
| `CollectionsEndpoint.GetRaw` | Sources/Taxii2Client/Collections.swift:38-40 | the very request of `get`, answered with raw data |
| `StatusEndpoint.New` | Sources/Taxii2Client/Status.swift:25-28 | the API root is stored with its last slash, and the status id as given |
| `StatusEndpoint.ThePath` | Sources/Taxii2Client/Status.swift:29 | the API root, `status/`, the status id and `/`, with the id recoverable from its place |
| `StatusEndpoint.ThePathInjective` | Sources/Taxii2Client/Status.swift:29 | under one API root, two status paths are equal exactly when the ids are |
| `StatusEndpoint.Get` | Sources/Taxii2Client/Status.swift:32-34 | a `GET` of the path with the TAXII media type, decoded as a status |
| `ApiRootEndpoint.New` | Sources/Taxii2Client/ApiRoot.swift:25-28 | the API root is stored with its last slash |
| `ApiRootEndpoint.Get` | Sources/Taxii2Client/ApiRoot.swift:30-32 | a `GET` of the API root itself with the TAXII media type, decoded as an API root |
| `ApiRootEndpoint.GetIgnoresBaseURL` | Sources/Taxii2Client/ApiRoot.swift:25-32 | the path is the API root as given, whatever the connection's host |
| `ApiRootEndpoint.Collections` | Sources/Taxii2Client/ApiRoot.swift:34-36 | the collections request of the same API root |
| `ApiRootEndpoint.CollectionsPath` | Sources/Taxii2Client/ApiRoot.swift:34-36 | the path is the API root with one last slash and `collections/` |
| `ApiRootEndpoint.CollectionAt` | Sources/Taxii2Client/ApiRoot.swift:38-40 | an error passes through; the value is present exactly when collections are listed, and then it is the element at the index |
| `ApiRootEndpoint.Status` | Sources/Taxii2Client/ApiRoot.swift:42-44 | the status request of the same API root |
| `ApiRootEndpoint.StatusPath` | Sources/Taxii2Client/ApiRoot.swift:42-44 | the path is the API root with one last slash, `status/`, the id and `/` |
| `ServerEndpoint.DiscoveryPathsNormal` | Sources/Taxii2Client/Server.swift:25-28 | the two discovery paths already end in a slash |
| `ServerEndpoint.New` | Sources/Taxii2Client/Server.swift:23-31 | `/taxii2/` exactly when the trimmed version is 2.1, `/taxii/` otherwise |
| `ServerEndpoint.Discovery` | Sources/Taxii2Client/Server.swift:33-35 | a `GET` of the base URL plus the path with the TAXII media type, decoded as a discovery resource |
| `ServerEndpoint.DiscoveryMatchesVersion` | Sources/Taxii2Client/Server.swift:23-35 | a 2.1 server asks `/taxii2/` with the 2.1 TAXII media type, every other `/taxii/` with the 2.0 one |
| `ServerEndpoint.ApirootStrings` | Sources/Taxii2Client/Server.swift:38-42 | an error passes through; the discovered list when there is one, else no strings |
| `ServerEndpoint.RootCalls` | Sources/Taxii2Client/Server.swift:57-59 | one API-root `GET` per discovered root, in order |
| `ServerEndpoint.Compact` | Sources/Taxii2Client/Server.swift:59 | dropping nil API roots never adds any |
| `ServerEndpoint.CompactContents` | Sources/Taxii2Client/Server.swift:59 | an API root is kept exactly when some request returned it |
| `ServerEndpoint.CompactKeepsAll` | Sources/Taxii2Client/Server.swift:59 | nothing is dropped exactly when every request returned an API root |
| `ServerEndpoint.FirstFailure` | Sources/Taxii2Client/Server.swift:61-63 | none exactly when every request succeeded, else the error of a failed one |
| `ServerEndpoint.Collect` | Sources/Taxii2Client/Server.swift:61-63 | an ending the collected publishers allow: a failed request's error, or all returned roots |
| `ServerEndpoint.GetApiroots` | Sources/Taxii2Client/Server.swift:45-55 | a discovery error passes through, a nil resource finishes with no value, a resource without a list gives no roots, and a list gives what collecting its requests allows |
| `ServerEndpoint.ApirootsMatchStrings` | Sources/Taxii2Client/Server.swift:38-55 | when every root answers, there are as many roots as strings; for a nil resource there are no strings and the roots stream finishes empty-handed |

## Left out

- Combine, `DispatchQueue.main` and `URLSession` are replaced by values.
  A request is a `Request` value, and an answer is a `Transport` outcome
  given as input. The timeout only configures the session and is not
  modelled.
- `URL(string:)!` and `URLComponents(string:)!` are not modelled; a request
  keeps the path it was built from. A path that is not a URL crashes the
  source.
- The `init(url:…)` convenience initialisers are left out. They parse a URL
  and pass on neither the TAXII version nor the timeout.
- The percent-encoder of `URLQueryItem` is a parameter (`escape`).
- The iteration order of the parameter dictionary is a parameter (`order`):
  Swift leaves it unspecified.
- `JSONDecoder` is a parameter `decode` of the typed fetch. The resources'
  Codable conformances are left out, except `TaxiiInt` and the discovery
  resource, which carry the protocol's quirks.
- The JSON text is a `Json` tree, and object key order and whitespace are
  not modelled.
- The JSON encoding a corrected `addObjects` would send is a parameter
  (`encoded`), and so are the bytes `JSONSerialization` would write for an
  array or dictionary (`serialized`).
- `UUID().uuidString` is a parameter `uuid` of the decoders that draw a
  fresh id.
- `URLError.localizedDescription` is a field of the error value.
- `Text.Lower`: only ASCII letters are lowered. Foundation's `lowercased()`
  also maps other scripts, which no scheme uses.
- `Text.Less`: ids are compared by Unicode scalar value, with no
  normalisation. Swift's `<` on `String` first treats canonically
  equivalent strings as equal, which makes no difference for the ASCII ids
  of UUIDs and STIX.
- `TaxiiProtocol.DiscoveryIdOrder`: `Same` on every resource compares ids
  scalar by scalar. Swift's `==` on `String` also identifies canonically
  equivalent strings, which makes no difference for ASCII ids.
- `TaxiiConnect.WithLastSlash`, `TaxiiConnect.WithoutLastSlash` and
  `TaxiiConnect.ProtocolValue`: Swift's `last` and `dropLast()` see the final
  grapheme cluster, the model the final Unicode scalar. The two differ only
  when a `/` or `:` ends a cluster of several scalars, as after a prepended
  mark such as U+0600, which Swift does not read as a trailing `/` or `:`.
- `TaxiiProtocol.DecodeTaxiiInt`: a JSON number is an exact fraction. The
  rounding to a binary `Double` before the truncation is not modelled.
- `TaxiiConnect.PortString`: the port is an unbounded integer, not a 64-bit
  `Int`.
- `TaxiiProtocol.AsParameters`: the limit is an unbounded integer, not a
  64-bit `Int`.
- `CollectionsEndpoint.At` requires the index to lie in the list when there
  is one; the source traps on any other index.
- `ApiRootEndpoint.CollectionAt` requires the same, for the same reason.
- `ServerEndpoint.GetApiroots` states the roots only up to order (a
  multiset), because `flatMap` delivers them in completion order. On failure
  it states only that the error is some failed request's error.
- `ServerEndpoint.GetApiroots` takes the API-root outcomes, one per listed
  root, as input.
- `Package.swift` is the build manifest and has no behaviour to model.

## Findings

| source | as written | input that shows it | evidently intended | confidence | as-written member | corrected member |
|---|---|---|---|---|---|---|
| Sources/Taxii2Client/Collection.swift:90-98 | `addObjects` passes the `TaxiiBundle` or `TaxiiEnvelope` struct to `JSONSerialization.data(withJSONObject:)`, which accepts only an array or dictionary at the top level and otherwise raises an exception that `try?` does not catch | any bundle or envelope | the resource is encoded as JSON (as by `JSONEncoder`) and posted to `thePath` | medium; not executed, read from Foundation's documented behaviour | `CollectionEndpoint.AddObjectsAsWritten`, `CollectionEndpoint.AddObjectsAlwaysTraps` | `CollectionEndpoint.AddObjects` |

=== FILE: api_root.dfy ===
/** The API Root endpoint (ApiRoot.swift): information about one API root,
    and the Collections and Status endpoints under it. */
module ApiRootEndpoint {
  import opened Wrappers
  import opened Text
  import opened TaxiiConnect
  import opened TaxiiProtocol
  import opened TaxiiConnection
  import CollectionsEndpoint
  import StatusEndpoint

  /** An `ApiRoot`: its normalised root and the connection. */
  datatype ApiRoot = ApiRoot(apiRoot: string, conn: Conn)

  /** `ApiRoot.init`. */
  function New(apiRoot: string, conn: Conn): (a: ApiRoot)
    ensures a.apiRoot == WithLastSlash(apiRoot) && EndsWithSlash(a.apiRoot) && IsTrimmed(a.apiRoot)
    ensures a.conn == conn
  {
    ApiRoot(WithLastSlash(apiRoot), conn)
  }

  /** `get`: a GET of the root itself, with the TAXII media type. */
  function Get(a: ApiRoot): (r: Call)
    ensures IsGet(r.request, a.conn, a.apiRoot, a.conn.media.taxii) && r.request.query.None?
    ensures r.decodes == ApiRootResource
  {
    Call(FetchThis(a.conn, a.apiRoot, 0), ApiRootResource)
  }

  /** The root is used as given: unlike the discovery request, the path
      does not depend on the connection's scheme, host or port. */
  lemma GetIgnoresBaseURL(root: string, c1: Conn, c2: Conn)
    ensures Get(New(root, c1)).request.path == Get(New(root, c2)).request.path == WithLastSlash(root)
  {
  }

  /** `collections()`: the `get` of a Collections endpoint on the same
      root. */
  function Collections(a: ApiRoot): (r: Call)
    ensures IsGet(r.request, a.conn, WithLastSlash(a.apiRoot) + "collections/", a.conn.media.taxii)
    ensures r.request.query.None? && r.decodes == CollectionsResource
  {
    CollectionsEndpoint.Get(CollectionsEndpoint.New(a.apiRoot, a.conn))
  }

  /** Normalising the root a second time is harmless: the collections path
      is the once-normalised root and `collections/`. */
  lemma CollectionsPath(root: string, c: Conn)
    ensures Collections(New(root, c)).request.path == WithLastSlash(root) + "collections/"
    ensures IsGet(Collections(New(root, c)).request, c, WithLastSlash(root) + "collections/", c.media.taxii)
  {
    WithLastSlashIdempotent(root);
  }

  /** `collections(index:)`: the same projection as `Collections.get(index:)`. */
  function CollectionAt(r: Result<Option<TaxiiCollections>, APIError>, index: int): (c: Result<Option<TaxiiCollection>, APIError>)
    requires CollectionsEndpoint.IndexInRange(r, index)
    ensures r.Failure? ==> c == Failure(r.error)
    ensures r.Success? ==> c.Success? && (c.value.Some? <==> CollectionsEndpoint.Listed(r).Some?)
    ensures c.Success? && c.value.Some? ==> c.value.value == CollectionsEndpoint.Listed(r).value[index]
  {
    CollectionsEndpoint.At(r, index)
  }

  /** `status(status_id:)`: the `get` of a Status endpoint on the same
      root. */
  function Status(a: ApiRoot, statusId: string): (r: Call)
    ensures IsGet(r.request, a.conn, WithLastSlash(a.apiRoot) + "status/" + statusId + "/", a.conn.media.taxii)
    ensures r.request.query.None? && r.decodes == StatusResource
  {
    StatusEndpoint.Get(StatusEndpoint.New(a.apiRoot, statusId, a.conn))
  }

  /** The status path is the once-normalised root, `status/`, the id and a
      slash. */
  lemma StatusPath(root: string, c: Conn, statusId: string)
    ensures Status(New(root, c), statusId).request.path == WithLastSlash(root) + "status/" + statusId + "/"
  {
    WithLastSlashIdempotent(root);
  }
}

=== FILE: base64.dfy ===
/** The base 64 encoding of section 4 of RFC 4648, with `=` padding, as
    produced by Foundation's `Data.base64EncodedString()`. The decoder is the
    strict one: it rejects characters outside the alphabet and non-zero pad
    bits, so that encoding and decoding are inverse in both directions. */
module Base64 {
  import opened Wrappers

  predicate IsSextet(i: int) {
    0 <= i < 64
  }

  /** Value to character, following Table 1 of RFC 4648. */
  function Char(i: int): (c: char)
    requires IsSextet(i)
    ensures Index(c) == Some(i)
  {
    if i < 26 then ('A' as int + i) as char
    else if i < 52 then ('a' as int + (i - 26)) as char
    else if i < 62 then ('0' as int + (i - 52)) as char
    else if i == 62 then '+'
    else '/'
  }

  /** Character to value; `None` outside the alphabet (the pad `=` included). */
  function Index(c: char): (r: Option<int>)
    ensures r.Some? ==> IsSextet(r.value)
  {
    if 'A' <= c <= 'Z' then Some(c as int - 'A' as int)
    else if 'a' <= c <= 'z' then Some(c as int - 'a' as int + 26)
    else if '0' <= c <= '9' then Some(c as int - '0' as int + 52)
    else if c == '+' then Some(62)
    else if c == '/' then Some(63)
    else None
  }

  lemma CharOfIndex(c: char)
    requires Index(c).Some?
    ensures Char(Index(c).value) == c
  {
  }

  /** Three octets, 24 bits, as four sextets, most significant first. */
  function Block(b0: Byte, b1: Byte, b2: Byte): string {
    [Char(b0 / 4), Char((b0 % 4) * 16 + b1 / 16), Char((b1 % 16) * 4 + b2 / 64), Char(b2 % 64)]
  }

  /** The encoding of `data`: four characters for every three octets, the
      final group padded with `=`. */
  function Encode(data: seq<Byte>): (r: string)
    ensures |r| == 4 * ((|data| + 2) / 3)
    decreases |data|
  {
    if |data| == 0 then ""
    else if |data| == 1 then
      [Char(data[0] / 4), Char((data[0] % 4) * 16), '=', '=']
    else if |data| == 2 then
      [Char(data[0] / 4), Char((data[0] % 4) * 16 + data[1] / 16), Char((data[1] % 16) * 4), '=']
    else
      GroupCount(|data|);
      Block(data[0], data[1], data[2]) + Encode(data[3..])
  }

  /** Three more octets make one more group of four characters. */
  lemma GroupCount(n: int)
    requires n >= 3
    ensures (n + 2) / 3 == (n - 3 + 2) / 3 + 1
  {
  }

  /** Four alphabet characters as three octets; `None` if any character is
      outside the alphabet. */
  function Quad(q: string): (r: Option<seq<Byte>>)
    requires |q| == 4
    ensures r.Some? ==> |r.value| == 3
  {
    var c0, c1, c2, c3 := Index(q[0]), Index(q[1]), Index(q[2]), Index(q[3]);
    if c0.None? || c1.None? || c2.None? || c3.None? then None
    else Some([c0.value * 4 + c1.value / 16, (c1.value % 16) * 16 + c2.value / 4,
               (c2.value % 4) * 64 + c3.value])
  }

  /** The last group: one or two octets when padded, else a full quad.
      Non-zero bits under the padding are rejected. */
  function LastQuad(q: string): (r: Option<seq<Byte>>)
    requires |q| == 4
  {
    if q[2] == '=' && q[3] == '=' then
      var c0, c1 := Index(q[0]), Index(q[1]);
      if c0.None? || c1.None? || c1.value % 16 != 0 then None
      else Some([c0.value * 4 + c1.value / 16])
    else if q[3] == '=' then
      var c0, c1, c2 := Index(q[0]), Index(q[1]), Index(q[2]);
      if c0.None? || c1.None? || c2.None? || c2.value % 4 != 0 then None
      else Some([c0.value * 4 + c1.value / 16, (c1.value % 16) * 16 + c2.value / 4])
    else Quad(q)
  }

  /** The octets a well-formed encoding denotes; `None` for anything else. */
  function Decode(s: string): (r: Option<seq<Byte>>)
    decreases |s|
  {
    if |s| == 0 then Some([])
    else if |s| < 4 then None
    else if |s| == 4 then LastQuad(s)
    else
      match Quad(s[..4])
      case None => None
      case Some(first) =>
        match Decode(s[4..])
        case None => None
        case Some(rest) => Some(first + rest)
  }

  /** The bit regrouping of one block, octets to sextets and back. */
  lemma OctetsToSextets(b0: Byte, b1: Byte, b2: Byte)
    ensures var c0, c1, c2, c3 := b0 / 4, (b0 % 4) * 16 + b1 / 16, (b1 % 16) * 4 + b2 / 64, b2 % 64;
      && IsSextet(c0) && IsSextet(c1) && IsSextet(c2) && IsSextet(c3)
      && c0 * 4 + c1 / 16 == b0
      && (c1 % 16) * 16 + c2 / 4 == b1
      && (c2 % 4) * 64 + c3 == b2
  {
  }

  /** The bit regrouping of one block, sextets to octets and back. */
  lemma SextetsToOctets(c0: int, c1: int, c2: int, c3: int)
    requires IsSextet(c0) && IsSextet(c1) && IsSextet(c2) && IsSextet(c3)
    ensures var b0, b1, b2 := c0 * 4 + c1 / 16, (c1 % 16) * 16 + c2 / 4, (c2 % 4) * 64 + c3;
      && 0 <= b0 < 256 && 0 <= b1 < 256 && 0 <= b2 < 256
      && b0 / 4 == c0
      && (b0 % 4) * 16 + b1 / 16 == c1
      && (b1 % 16) * 4 + b2 / 64 == c2
      && b2 % 64 == c3
  {
  }

  /** No alphabet character is the pad. */
  lemma CharNotPad(i: int)
    requires IsSextet(i)
    ensures Char(i) != '='
  {
    assert Index('=') == None;
  }

  /** The decoder reads the characters of four sextets as the octets they
      carry, alone or as the last group. */
  lemma QuadOfChars(c0: int, c1: int, c2: int, c3: int, b0: Byte, b1: Byte, b2: Byte)
    requires IsSextet(c0) && IsSextet(c1) && IsSextet(c2) && IsSextet(c3)
    requires c0 * 4 + c1 / 16 == b0 && (c1 % 16) * 16 + c2 / 4 == b1 && (c2 % 4) * 64 + c3 == b2
    ensures Quad([Char(c0), Char(c1), Char(c2), Char(c3)]) == Some([b0, b1, b2])
    ensures LastQuad([Char(c0), Char(c1), Char(c2), Char(c3)]) == Some([b0, b1, b2])
  {
    CharNotPad(c3);
  }

  /** The decoder reads two characters and two pads as one octet. */
  lemma LastQuadOfOne(c0: int, c1: int)
    requires IsSextet(c0) && IsSextet(c1) && c1 % 16 == 0
    ensures var r := LastQuad([Char(c0), Char(c1), '=', '=']);
      && r.Some? && |r.value| == 1
      && r.value[0] == c0 * 4 + c1 / 16
  {
  }

  /** The decoder reads three characters and a pad as two octets. */
  lemma LastQuadOfTwo(c0: int, c1: int, c2: int)
    requires IsSextet(c0) && IsSextet(c1) && IsSextet(c2) && c2 % 4 == 0
    ensures var r := LastQuad([Char(c0), Char(c1), Char(c2), '=']);
      && r.Some? && |r.value| == 2
      && r.value[0] == c0 * 4 + c1 / 16
      && r.value[1] == (c1 % 16) * 16 + c2 / 4
  {
    CharNotPad(c2);
  }

  /** The padded group of one octet decodes to that octet. */
  lemma DecodeOneOctet(b0: Byte)
    ensures Decode(Encode([b0])) == Some([b0])
  {
    var c0, c1 := b0 / 4, (b0 % 4) * 16;
    assert IsSextet(c0) && IsSextet(c1) && c1 % 16 == 0 && c0 * 4 + c1 / 16 == b0 by {
      OctetsToSextets(b0, 0, 0);
    }
    var q := [Char(c0), Char(c1), '=', '='];
    assert Encode([b0]) == q;
    LastQuadOfOne(c0, c1);
    assert Decode(q) == LastQuad(q);
  }

  /** The padded group of two octets decodes to those octets. */
  lemma DecodeTwoOctets(b0: Byte, b1: Byte)
    ensures Decode(Encode([b0, b1])) == Some([b0, b1])
  {
    var c0, c1, c2 := b0 / 4, (b0 % 4) * 16 + b1 / 16, (b1 % 16) * 4;
    assert IsSextet(c0) && IsSextet(c1) && IsSextet(c2) && c2 % 4 == 0
      && c0 * 4 + c1 / 16 == b0 && (c1 % 16) * 16 + c2 / 4 == b1 by {
      OctetsToSextets(b0, b1, 0);
    }
    var q := [Char(c0), Char(c1), Char(c2), '='];
    assert Encode([b0, b1]) == q;
    LastQuadOfTwo(c0, c1, c2);
    assert Decode(q) == LastQuad(q);
  }

  /** A block decodes to its three octets, alone or as the last group. */
  lemma QuadOfBlock(b0: Byte, b1: Byte, b2: Byte)
    ensures Quad(Block(b0, b1, b2)) == Some([b0, b1, b2])
    ensures LastQuad(Block(b0, b1, b2)) == Some([b0, b1, b2])
  {
    var c0, c1, c2, c3 := b0 / 4, (b0 % 4) * 16 + b1 / 16, (b1 % 16) * 4 + b2 / 64, b2 % 64;
    assert IsSextet(c0) && IsSextet(c1) && IsSextet(c2) && IsSextet(c3)
      && c0 * 4 + c1 / 16 == b0 && (c1 % 16) * 16 + c2 / 4 == b1 && (c2 % 4) * 64 + c3 == b2 by {
      OctetsToSextets(b0, b1, b2);
    }
    var q := [Char(c0), Char(c1), Char(c2), Char(c3)];
    assert Block(b0, b1, b2) == q;
    QuadOfChars(c0, c1, c2, c3, b0, b1, b2);
  }

  /** Decoding an encoding gives back the octets. */
  lemma {:induction false} DecodeEncode(data: seq<Byte>)
    ensures Decode(Encode(data)) == Some(data)
    decreases |data|
  {
    if |data| == 1 {
      DecodeOneOctet(data[0]);
      assert data == [data[0]];
    } else if |data| == 2 {
      DecodeTwoOctets(data[0], data[1]);
      assert data == [data[0], data[1]];
    } else if |data| >= 3 {
      var head, rest := data[..3], data[3..];
      assert data == head + rest;
      assert head == [data[0], data[1], data[2]];
      var block := Block(data[0], data[1], data[2]);
      QuadOfBlock(data[0], data[1], data[2]);
      var s := Encode(data);
      assert s == block + Encode(rest);
      if |rest| == 0 {
        assert data == head && s == block;
        assert Decode(s) == LastQuad(block);
      } else {
        DecodeEncode(rest);
        DecodeStep(s, block, Encode(rest));
      }
    }
  }

  /** Decoding a full group followed by more groups. */
  lemma DecodeStep(s: string, q: string, rest: string)
    requires |q| == 4 && |rest| > 0 && s == q + rest
    requires Quad(q).Some? && Decode(rest).Some?
    ensures Decode(s) == Some(Quad(q).value + Decode(rest).value)
  {
    assert s[..4] == q && s[4..] == rest;
  }

  /** A block is the characters of the sextets its octets split into. */
  lemma BlockChars(b0: Byte, b1: Byte, b2: Byte, c0: int, c1: int, c2: int, c3: int)
    requires b0 / 4 == c0 && (b0 % 4) * 16 + b1 / 16 == c1
    requires (b1 % 16) * 4 + b2 / 64 == c2 && b2 % 64 == c3
    ensures IsSextet(c0) && IsSextet(c1) && IsSextet(c2) && IsSextet(c3)
    ensures Block(b0, b1, b2) == [Char(c0), Char(c1), Char(c2), Char(c3)]
  {
  }

  /** The characters of four sextets form the block of the octets they carry. */
  lemma BlockOfSextets(c0: int, c1: int, c2: int, c3: int)
    requires IsSextet(c0) && IsSextet(c1) && IsSextet(c2) && IsSextet(c3)
    ensures var b0, b1, b2 := c0 * 4 + c1 / 16, (c1 % 16) * 16 + c2 / 4, (c2 % 4) * 64 + c3;
      && 0 <= b0 < 256 && 0 <= b1 < 256 && 0 <= b2 < 256
      && Block(b0, b1, b2) == [Char(c0), Char(c1), Char(c2), Char(c3)]
  {
    var b0, b1, b2 := c0 * 4 + c1 / 16, (c1 % 16) * 16 + c2 / 4, (c2 % 4) * 64 + c3;
    assert 0 <= b0 < 256 && 0 <= b1 < 256 && 0 <= b2 < 256
      && b0 / 4 == c0 && (b0 % 4) * 16 + b1 / 16 == c1
      && (b1 % 16) * 4 + b2 / 64 == c2 && b2 % 64 == c3 by {
      SextetsToOctets(c0, c1, c2, c3);
    }
    BlockChars(b0, b1, b2, c0, c1, c2, c3);
  }

  /** The characters of a quad are those of its sextets. */
  lemma CharsOfQuad(q: string)
    requires |q| == 4 && Quad(q).Some?
    ensures q == [Char(Index(q[0]).value), Char(Index(q[1]).value), Char(Index(q[2]).value), Char(Index(q[3]).value)]
  {
    CharOfIndex(q[0]);
    CharOfIndex(q[1]);
    CharOfIndex(q[2]);
    CharOfIndex(q[3]);
  }

  /** A quad the decoder accepts is the block of its octets. */
  lemma BlockOfQuad(q: string)
    requires |q| == 4 && Quad(q).Some?
    ensures var b := Quad(q).value; Block(b[0], b[1], b[2]) == q
  {
    var c0, c1, c2, c3 := Index(q[0]).value, Index(q[1]).value, Index(q[2]).value, Index(q[3]).value;
    var b := Quad(q).value;
    assert b == [c0 * 4 + c1 / 16, (c1 % 16) * 16 + c2 / 4, (c2 % 4) * 64 + c3];
    assert Block(b[0], b[1], b[2]) == [Char(c0), Char(c1), Char(c2), Char(c3)] by {
      BlockOfSextets(c0, c1, c2, c3);
    }
    assert [Char(c0), Char(c1), Char(c2), Char(c3)] == q by {
      CharsOfQuad(q);
    }
  }

  /** One octet under two sextets whose low four bits are zero encodes to
      those sextets and two pads. */
  lemma EncodeOnePadded(c0: int, c1: int)
    requires IsSextet(c0) && IsSextet(c1) && c1 % 16 == 0
    ensures var b0 := c0 * 4 + c1 / 16;
      0 <= b0 < 256 && Encode([b0]) == [Char(c0), Char(c1), '=', '=']
  {
    var b0 := c0 * 4 + c1 / 16;
    assert 0 <= b0 < 256 && b0 / 4 == c0 && (b0 % 4) * 16 == c1 by {
      SextetsToOctets(c0, c1, 0, 0);
    }
  }

  /** Two octets under three sextets whose low two bits are zero encode to
      those sextets and one pad. */
  lemma EncodeTwoPadded(c0: int, c1: int, c2: int)
    requires IsSextet(c0) && IsSextet(c1) && IsSextet(c2) && c2 % 4 == 0
    ensures var b0, b1 := c0 * 4 + c1 / 16, (c1 % 16) * 16 + c2 / 4;
      && 0 <= b0 < 256 && 0 <= b1 < 256
      && Encode([b0, b1]) == [Char(c0), Char(c1), Char(c2), '=']
  {
    var b0, b1 := c0 * 4 + c1 / 16, (c1 % 16) * 16 + c2 / 4;
    assert 0 <= b0 < 256 && 0 <= b1 < 256
      && b0 / 4 == c0 && (b0 % 4) * 16 + b1 / 16 == c1 && (b1 % 16) * 4 == c2 by {
      SextetsToOctets(c0, c1, c2, 0);
    }
  }

  /** A last group the decoder accepts is the encoding of its octets. */
  lemma EncodeLastQuad(q: string)
    requires |q| == 4 && LastQuad(q).Some?
    ensures Encode(LastQuad(q).value) == q
  {
    if q[2] == '=' && q[3] == '=' {
      var c0, c1 := Index(q[0]).value, Index(q[1]).value;
      assert LastQuad(q).value == [c0 * 4 + c1 / 16];
      EncodeOnePadded(c0, c1);
      assert [Char(c0), Char(c1), '=', '='] == q by {
        CharOfIndex(q[0]);
        CharOfIndex(q[1]);
      }
    } else if q[3] == '=' {
      var c0, c1, c2 := Index(q[0]).value, Index(q[1]).value, Index(q[2]).value;
      assert LastQuad(q).value == [c0 * 4 + c1 / 16, (c1 % 16) * 16 + c2 / 4];
      EncodeTwoPadded(c0, c1, c2);
      assert [Char(c0), Char(c1), Char(c2), '='] == q by {
        CharOfIndex(q[0]);
        CharOfIndex(q[1]);
        CharOfIndex(q[2]);
      }
    } else {
      var b := LastQuad(q).value;
      assert b == Quad(q).value;
      BlockOfQuad(q);
      assert Encode(b) == Block(b[0], b[1], b[2]);
    }
  }

  /** Every string the decoder accepts is the encoding of what it decodes
      to: the encoding is canonical. */
  lemma {:induction false} EncodeDecode(s: string)
    requires Decode(s).Some?
    ensures Encode(Decode(s).value) == s
    decreases |s|
  {
    if |s| == 4 {
      EncodeLastQuad(s);
    } else if |s| > 4 {
      var first := Quad(s[..4]).value;
      var rest := Decode(s[4..]).value;
      BlockOfQuad(s[..4]);
      EncodeDecode(s[4..]);
      var data := first + rest;
      assert data[3..] == rest;
      assert Encode(data) == Block(data[0], data[1], data[2]) + Encode(rest);
      assert s == s[..4] + s[4..];
    }
  }
}

=== FILE: collection.dfy ===
/** The Collection endpoint (Collection.swift): the paths, methods and
    media types of the requests a collection issues. The endpoint paths of
    section 5 of the TAXII 2.1 specification serve as the reference the
    paths are compared with. */
module CollectionEndpoint {
  import opened Wrappers
  import opened Text
  import opened TaxiiConnect
  import opened TaxiiProtocol
  import opened TaxiiConnection

  /** A `Collection`: the collection resource, its API root (normalised to
      end in one `/`) and the connection. */
  datatype Collection = Collection(taxiiCollection: TaxiiCollection, apiRoot: string, conn: Conn)

  /** `Collection.init`. */
  function New(taxiiCollection: TaxiiCollection, apiRoot: string, conn: Conn): (col: Collection)
    ensures col.apiRoot == WithLastSlash(apiRoot) && EndsWithSlash(col.apiRoot) && IsTrimmed(col.apiRoot)
    ensures col.taxiiCollection == taxiiCollection && col.conn == conn
  {
    Collection(taxiiCollection, WithLastSlash(apiRoot), conn)
  }

  const CollectionsSegment := "collections/"
  const ObjectsSegment := "/objects/"

  /** `basePath`: the root, `collections/` and the collection id. */
  function BasePath(col: Collection): string {
    col.apiRoot + CollectionsSegment + col.taxiiCollection.id
  }

  /** `thePath`: the base path followed by `/objects/`. The root and the
      collection id can be read back from it. */
  function ThePath(col: Collection): (p: string)
    ensures EndsWithSlash(p)
    ensures |p| == |col.apiRoot| + |CollectionsSegment| + |col.taxiiCollection.id| + |ObjectsSegment|
    ensures p[..|col.apiRoot|] == col.apiRoot
    ensures p[|col.apiRoot| + |CollectionsSegment|..|p| - |ObjectsSegment|] == col.taxiiCollection.id
  {
    var p := BasePath(col) + ObjectsSegment;
    assert p == col.apiRoot + (CollectionsSegment + col.taxiiCollection.id + ObjectsSegment);
    p
  }

  // ---------------------------------------------------------------------
  // The reference: the collection endpoints of TAXII 2.1

  /** The per-collection endpoints of section 5 of the TAXII 2.1
      specification. */
  datatype Endpoint =
    | ObjectsEndpoint
    | ObjectEndpoint(objectId: string)
    | VersionsEndpoint(objectId: string)
    | ManifestEndpoint

  /** The path of an endpoint of the collection `id` under `root`. */
  function SpecPath(root: string, id: string, e: Endpoint): string {
    var collection := root + CollectionsSegment + id + "/";
    match e
    case ObjectsEndpoint => collection + "objects/"
    case ObjectEndpoint(o) => collection + "objects/" + o + "/"
    case VersionsEndpoint(o) => collection + "objects/" + o + "/versions/"
    case ManifestEndpoint => collection + "manifest/"
  }

  /** `thePath` is the objects endpoint of the specification. */
  lemma ThePathIsObjectsEndpoint(col: Collection)
    ensures ThePath(col) == SpecPath(col.apiRoot, col.taxiiCollection.id, ObjectsEndpoint)
  {
    SegmentsAgree();
  }

  lemma SegmentsAgree()
    ensures ObjectsSegment == "/" + "objects/"
  {
  }

  // ---------------------------------------------------------------------
  // Operations

  /** A GET of `path`: with the filters' query and the TAXII media type when
      filters are given, else without a query and with the media type of
      `headerType`. */
  function Fetch(conn: Conn, path: string, filters: Option<Filters>, headerType: int): (r: Request)
    ensures filters.Some? ==> IsGet(r, conn, path, conn.media.taxii) && r.query == Some(AsParameters(filters.value))
    ensures filters.None? ==> IsGet(r, conn, path, SelectMedia(conn, headerType)) && r.query.None?
  {
    if filters.Some? then FetchThisWithFilters(conn, path, filters.value, 0)
    else FetchThis(conn, path, headerType)
  }

  /** The media type a collection operation uses: STIX without filters, the
      default TAXII type with them. */
  function ObjectMedia(col: Collection, filters: Option<Filters>): string {
    if filters.Some? then col.conn.media.taxii else col.conn.media.stix
  }

  /** `getBundle`: a GET of `thePath` with the STIX media type. */
  function GetBundle(col: Collection): (r: Call)
    ensures IsGet(r.request, col.conn, ThePath(col), col.conn.media.stix) && r.request.query.None?
    ensures r.decodes == BundleResource
  {
    Call(FetchThis(col.conn, ThePath(col), 1), BundleResource)
  }

  /** `getObjects`: a GET of `thePath` followed by a second `objects/`. */
  function GetObjects(col: Collection, filters: Option<Filters>): (r: Call)
    ensures IsGet(r.request, col.conn, ThePath(col) + "objects/", ObjectMedia(col, filters))
    ensures r.request.query == (if filters.Some? then Some(AsParameters(filters.value)) else None)
    ensures r.decodes == EnvelopeResource
  {
    Call(Fetch(col.conn, ThePath(col) + "objects/", filters, 1), EnvelopeResource)
  }

  /** `getObject`: a GET of the object's own path. */
  function GetObject(col: Collection, objId: string, filters: Option<Filters>): (r: Call)
    ensures IsGet(r.request, col.conn, ThePath(col) + objId + "/", ObjectMedia(col, filters))
    ensures r.request.query == (if filters.Some? then Some(AsParameters(filters.value)) else None)
    ensures r.decodes == EnvelopeResource
  {
    Call(Fetch(col.conn, ThePath(col) + objId + "/", filters, 1), EnvelopeResource)
  }

  /** `getObjectVersions`: a GET of the object's `versions/` path. */
  function GetObjectVersions(col: Collection, objId: string, filters: Option<Filters>): (r: Call)
    ensures IsGet(r.request, col.conn, ThePath(col) + objId + "/versions/", ObjectMedia(col, filters))
    ensures r.request.query == (if filters.Some? then Some(AsParameters(filters.value)) else None)
    ensures r.decodes == VersionsResource
  {
    Call(Fetch(col.conn, ThePath(col) + objId + "/versions/", filters, 1), VersionsResource)
  }

  /** `deleteObject`: a GET, not a DELETE, under a doubled `objects/`. */
  function DeleteObject(col: Collection, objId: string, filters: Option<Filters>): (r: Call)
    ensures IsGet(r.request, col.conn, ThePath(col) + "objects/" + objId + "/", ObjectMedia(col, filters))
    ensures r.request.query == (if filters.Some? then Some(AsParameters(filters.value)) else None)
    ensures r.decodes == AnyJson
  {
    Call(Fetch(col.conn, ThePath(col) + "objects/" + objId + "/", filters, 1), AnyJson)
  }

  /** `getRaw`: the request of `getBundle`, answered with raw bytes. */
  function GetRaw(col: Collection): (r: Call)
    ensures r.request == GetBundle(col).request
    ensures r.decodes == RawBytes
  {
    Call(FetchRaw(col.conn, ThePath(col), 1), RawBytes)
  }

  /** `getManifests`: a GET of `thePath` followed by `manifest/`, with the
      TAXII media type in both branches. */
  function GetManifests(col: Collection, filters: Option<Filters>): (r: Call)
    ensures IsGet(r.request, col.conn, ThePath(col) + "manifest/", col.conn.media.taxii)
    ensures r.request.query == (if filters.Some? then Some(AsParameters(filters.value)) else None)
    ensures r.decodes == ManifestRecordResource
  {
    Call(Fetch(col.conn, ThePath(col) + "manifest/", filters, 0), ManifestRecordResource)
  }

  /** Both `addObjects`, as evidently intended: a POST to `thePath` whose
      body is the JSON encoding of the bundle or envelope, answered by a
      status resource. */
  function AddObjects(col: Collection, encoded: seq<Byte>): (r: Call)
    ensures r.request.verb == Post && r.request.path == ThePath(col)
    ensures HasHeaders(r.request, col.conn, col.conn.media.taxii, col.conn.media.stix)
    ensures r.request.body == Some(encoded)
    ensures r.decodes == StatusResource
  {
    Call(PostThis(col.conn, ThePath(col), encoded), StatusResource)
  }

  /** The kind of value handed to `JSONSerialization.data(withJSONObject:)`.
      Foundation writes only an array or a dictionary at the top level. Any
      other value raises an Objective-C exception (a `fatalError` in the
      open-source Foundation) before anything is written, and `try?` catches
      neither. `ArrayObject` and `DictionaryObject` stand for an array or a
      dictionary of JSON values only: one holding any other value raises
      just the same, and belongs with `OtherValue`. */
  datatype TopLevel = ArrayObject | DictionaryObject | OtherValue

  /** Both `addObjects` hand over the `TaxiiBundle` or `TaxiiEnvelope`
      struct itself, which is neither an array nor a dictionary. */
  const PassedTopLevel := OtherValue

  /** Whether a program runs on to a value or stops. */
  datatype Outcome<+T> = Returns(value: T) | Traps

  /** Both `addObjects` as written: serialization traps on a top level that
      is not an array or a dictionary. Otherwise the bytes it writes, or an
      empty body when it throws, are posted. */
  function AddObjectsAsWritten(col: Collection, top: TopLevel, serialized: Option<seq<Byte>>): (r: Outcome<Call>)
    ensures r.Traps? <==> top == OtherValue
    ensures r.Returns? ==> r.value.request.verb == Post && r.value.request.path == ThePath(col)
    ensures r.Returns? ==> r.value.request.body == Some(if serialized.Some? then serialized.value else [])
  {
    if top == OtherValue then Traps
    else Returns(AddObjects(col, serialized.GetOr([])))
  }

  /** What `addObjects` actually passes to the serializer makes it trap,
      whatever the serializer would have written: no POST is ever built. */
  lemma AddObjectsAlwaysTraps(col: Collection, serialized: Option<seq<Byte>>)
    ensures AddObjectsAsWritten(col, PassedTopLevel, serialized) == Traps
  {
  }

  /** Had an array or dictionary of JSON values been passed, the program as
      written would send the request the intended definition sends for the
      written bytes. */
  lemma AddObjectsAgreesOnJsonObjects(col: Collection, top: TopLevel, encoded: seq<Byte>)
    requires top != OtherValue
    ensures AddObjectsAsWritten(col, top, Some(encoded)) == Returns(AddObjects(col, encoded))
  {
  }

  // ---------------------------------------------------------------------
  // The paths against the reference

  /** The object, versions and manifest endpoints, written relative to the
      objects endpoint. */
  lemma SpecPathsFromObjects(root: string, id: string, o: string)
    ensures var objects := SpecPath(root, id, ObjectsEndpoint);
      && SpecPath(root, id, ObjectEndpoint(o)) == objects + o + "/"
      && SpecPath(root, id, VersionsEndpoint(o)) == objects + o + "/versions/"
      && |SpecPath(root, id, ManifestEndpoint)| == |objects| + 1
  {
  }

  /** `getObject` and `getObjectVersions` hit their endpoints. */
  lemma ObjectPathsFollowSpec(col: Collection, objId: string, filters: Option<Filters>)
    ensures GetObject(col, objId, filters).request.path
         == SpecPath(col.apiRoot, col.taxiiCollection.id, ObjectEndpoint(objId))
    ensures GetObjectVersions(col, objId, filters).request.path
         == SpecPath(col.apiRoot, col.taxiiCollection.id, VersionsEndpoint(objId))
  {
    ThePathIsObjectsEndpoint(col);
    SpecPathsFromObjects(col.apiRoot, col.taxiiCollection.id, objId);
  }

  /** `getObjects` doubles the `objects/` segment: it asks for the object
      whose id is `objects` instead of the objects endpoint. */
  lemma GetObjectsDoublesSegment(col: Collection, filters: Option<Filters>)
    ensures GetObjects(col, filters).request.path
         == SpecPath(col.apiRoot, col.taxiiCollection.id, ObjectEndpoint("objects"))
    ensures GetObjects(col, filters).request.path
         != SpecPath(col.apiRoot, col.taxiiCollection.id, ObjectsEndpoint)
  {
    var objects := SpecPath(col.apiRoot, col.taxiiCollection.id, ObjectsEndpoint);
    assert ThePath(col) == objects by {
      ThePathIsObjectsEndpoint(col);
    }
    assert SpecPath(col.apiRoot, col.taxiiCollection.id, ObjectEndpoint("objects")) == objects + "objects/" by {
      SpecPathsFromObjects(col.apiRoot, col.taxiiCollection.id, "objects");
      assert objects + "objects" + "/" == objects + "objects/";
    }
  }

  /** `getManifests` asks under the objects endpoint, for the object whose
      id is `manifest`, not at the manifest endpoint. */
  lemma ManifestPathUnderObjects(col: Collection, filters: Option<Filters>)
    ensures GetManifests(col, filters).request.path
         == SpecPath(col.apiRoot, col.taxiiCollection.id, ObjectEndpoint("manifest"))
    ensures GetManifests(col, filters).request.path
         != SpecPath(col.apiRoot, col.taxiiCollection.id, ManifestEndpoint)
  {
    var objects := SpecPath(col.apiRoot, col.taxiiCollection.id, ObjectsEndpoint);
    assert ThePath(col) == objects by {
      ThePathIsObjectsEndpoint(col);
    }
    assert SpecPath(col.apiRoot, col.taxiiCollection.id, ObjectEndpoint("manifest")) == objects + "manifest/"
        && |SpecPath(col.apiRoot, col.taxiiCollection.id, ManifestEndpoint)| == |objects| + 1 by {
      SpecPathsFromObjects(col.apiRoot, col.taxiiCollection.id, "manifest");
      assert objects + "manifest" + "/" == objects + "manifest/";
    }
  }

  /** `deleteObject` sends a GET to the object path under the doubled
      segment: it neither deletes nor addresses the object's endpoint. */
  lemma DeleteObjectIsGet(col: Collection, objId: string, filters: Option<Filters>)
    ensures DeleteObject(col, objId, filters).request.verb == Get
    ensures DeleteObject(col, objId, filters).request.path
         == SpecPath(col.apiRoot, col.taxiiCollection.id, ObjectEndpoint("objects")) + objId + "/"
    ensures DeleteObject(col, objId, filters).request.path
         != SpecPath(col.apiRoot, col.taxiiCollection.id, ObjectEndpoint(objId))
  {
    var objects := SpecPath(col.apiRoot, col.taxiiCollection.id, ObjectsEndpoint);
    assert ThePath(col) == objects by {
      ThePathIsObjectsEndpoint(col);
    }
    assert SpecPath(col.apiRoot, col.taxiiCollection.id, ObjectEndpoint("objects")) + objId + "/"
        == objects + "objects/" + objId + "/"
        && |SpecPath(col.apiRoot, col.taxiiCollection.id, ObjectEndpoint(objId))| == |objects| + |objId| + 1 by {
      SpecPathsFromObjects(col.apiRoot, col.taxiiCollection.id, "objects");
      SpecPathsFromObjects(col.apiRoot, col.taxiiCollection.id, objId);
      assert objects + "objects" + "/" == objects + "objects/";
    }
  }

  /** The filtered branch is taken on the mere presence of filters: a
      filter value with nothing set still changes the media type and adds
      an empty query. */
  lemma EmptyFiltersStillFilter(col: Collection, objId: string)
    requires col.conn.media.stix != col.conn.media.taxii
    ensures GetObject(col, objId, Some(NoFilters)).request.query == Some(map[])
    ensures GetObject(col, objId, None).request.query.None?
    ensures GetObject(col, objId, Some(NoFilters)).request.headers[AcceptHeader]
         != GetObject(col, objId, None).request.headers[AcceptHeader]
  {
    NoFiltersNoParameters();
  }

  /** Each suffix a collection operation appends keeps `t` as a prefix. */
  lemma SuffixesKeepPrefix(t: string, objId: string)
    ensures StartsWith(t, t)
    ensures StartsWith(t + "objects/", t)
    ensures StartsWith(t + objId + "/", t)
    ensures StartsWith(t + objId + "/versions/", t)
    ensures StartsWith(t + "objects/" + objId + "/", t)
    ensures StartsWith(t + "manifest/", t)
  {
    assert t[..|t|] == t;
    StartsWithAppend(t, t, "objects/");
    StartsWithAppend(t, t, objId + "/");
    assert t + objId + "/" == t + (objId + "/");
    StartsWithAppend(t, t, objId + "/versions/");
    assert t + objId + "/versions/" == t + (objId + "/versions/");
    StartsWithAppend(t, t, "objects/" + objId + "/");
    assert t + "objects/" + objId + "/" == t + ("objects/" + objId + "/");
    StartsWithAppend(t, t, "manifest/");
  }

  /** Every request of a collection goes to a path that starts with
      `thePath`, and so names the collection. */
  lemma PathsUnderThePath(col: Collection, objId: string, filters: Option<Filters>, encoded: seq<Byte>)
    ensures StartsWith(GetBundle(col).request.path, ThePath(col))
    ensures StartsWith(GetRaw(col).request.path, ThePath(col))
    ensures StartsWith(AddObjects(col, encoded).request.path, ThePath(col))
    ensures StartsWith(GetObjects(col, filters).request.path, ThePath(col))
    ensures StartsWith(GetObject(col, objId, filters).request.path, ThePath(col))
    ensures StartsWith(GetObjectVersions(col, objId, filters).request.path, ThePath(col))
    ensures StartsWith(DeleteObject(col, objId, filters).request.path, ThePath(col))
    ensures StartsWith(GetManifests(col, filters).request.path, ThePath(col))
  {
    SuffixesKeepPrefix(ThePath(col), objId);
  }
}

=== FILE: collections.dfy ===
/** The Collections endpoint (Collections.swift): the list of collections
    under an API root. */
module CollectionsEndpoint {
  import opened Wrappers
  import opened Text
  import opened TaxiiConnect
  import opened TaxiiProtocol
  import opened TaxiiConnection

  /** A `Collections` endpoint: its normalised API root and the connection. */
  datatype Collections = Collections(apiRoot: string, conn: Conn)

  /** `Collections.init`. */
  function New(apiRoot: string, conn: Conn): (cs: Collections)
    ensures cs.apiRoot == WithLastSlash(apiRoot) && EndsWithSlash(cs.apiRoot)
    ensures cs.conn == conn
  {
    Collections(WithLastSlash(apiRoot), conn)
  }

  /** `thePath`: the root followed by `collections/`; the trimmed root can
      be read back from it. */
  function ThePath(cs: Collections): (p: string)
    ensures EndsWithSlash(p)
    ensures StartsWith(p, cs.apiRoot) && p[|cs.apiRoot|..] == "collections/"
  {
    var p := cs.apiRoot + "collections/";
    assert p[..|cs.apiRoot|] == cs.apiRoot;
    p
  }

  /** `get`: a GET of `thePath` with the TAXII media type. */
  function Get(cs: Collections): (r: Call)
    ensures IsGet(r.request, cs.conn, ThePath(cs), cs.conn.media.taxii) && r.request.query.None?
    ensures r.decodes == CollectionsResource
  {
    Call(FetchThis(cs.conn, ThePath(cs), 0), CollectionsResource)
  }

  /** `getRaw`: the request of `get`, answered with raw bytes. */
  function GetRaw(cs: Collections): (r: Call)
    ensures r.request == Get(cs).request
    ensures r.decodes == RawBytes
  {
    Call(FetchRaw(cs.conn, ThePath(cs), 0), RawBytes)
  }

  /** The list a fetched collections resource carries, if any. */
  function Listed(r: Result<Option<TaxiiCollections>, APIError>): Option<seq<TaxiiCollection>> {
    if r.Success? && r.value.Some? then r.value.value.collections else None
  }

  /** Swift traps on an index outside a list that is present. */
  predicate IndexInRange(r: Result<Option<TaxiiCollections>, APIError>, index: int) {
    Listed(r).Some? ==> 0 <= index < |Listed(r).value|
  }

  /** `get(index:)`: an error passes through; a nil resource or a nil list
      gives nil; otherwise the element at `index`. */
  function At(r: Result<Option<TaxiiCollections>, APIError>, index: int): (c: Result<Option<TaxiiCollection>, APIError>)
    requires IndexInRange(r, index)
    ensures c.Failure? <==> r.Failure?
    ensures r.Failure? ==> c.error == r.error
    ensures c.Success? ==> (c.value.Some? <==> Listed(r).Some?)
    ensures c.Success? && c.value.Some? ==> c.value.value == Listed(r).value[index]
  {
    match r
    case Failure(e) => Failure(e)
    case Success(None) => Success(None)
    case Success(Some(resource)) =>
      match resource.collections
      case None => Success(None)
      case Some(xs) => Success(Some(xs[index]))
  }

  /** Reading every index in turn gives back the list. */
  lemma AtEnumerates(r: Result<Option<TaxiiCollections>, APIError>)
    requires Listed(r).Some?
    ensures forall i :: 0 <= i < |Listed(r).value| ==> At(r, i) == Success(Some(Listed(r).value[i]))
    ensures seq(|Listed(r).value|, i requires 0 <= i < |Listed(r).value| => At(r, i).value.value) == Listed(r).value
  {
  }
}

=== FILE: decimal.dfy ===
/** Decimal rendering and parsing of integers: Swift's string interpolation
    and `String(Int)` on one side, `UInt64(String)` and `Int(String)` on the
    other. */
module Decimal {
  import opened Wrappers

  const UInt64Max: int := 0xFFFF_FFFF_FFFF_FFFF

  /** Swift's `UInt64`. */
  type UInt64 = v: int | 0 <= v <= UInt64Max

  predicate IsDigit(c: char) {
    '0' <= c <= '9'
  }

  predicate AllDigits(s: string) {
    forall i :: 0 <= i < |s| ==> IsDigit(s[i])
  }

  function DigitChar(d: nat): (c: char)
    requires d < 10
    ensures IsDigit(c) && c as int - '0' as int == d
  {
    ('0' as int + d) as char
  }

  /** The number an all-digit string denotes (0 for the empty string). */
  function Value(s: string): nat
    requires AllDigits(s)
    decreases |s|
  {
    if |s| == 0 then 0 else Value(s[..|s| - 1]) * 10 + (s[|s| - 1] as int - '0' as int)
  }

  /** The decimal digits of `n`, without leading zeros. */
  function FromNat(n: nat): (r: string)
    ensures |r| > 0 && AllDigits(r)
    ensures Value(r) == n
    ensures r[0] == '0' ==> r == "0"
    decreases n
  {
    if n < 10 then [DigitChar(n)]
    else
      var prefix := FromNat(n / 10);
      var r := prefix + [DigitChar(n % 10)];
      assert r[..|r| - 1] == prefix;
      r
  }

  /** The digits of a numeral with its minus sign, if any, removed. */
  function Magnitude(s: string): string {
    if |s| > 0 && s[0] == '-' then s[1..] else s
  }

  /** A numeral as Swift writes an integer: an optional minus sign, then one
      or more digits with no leading zero, and no "-0". */
  predicate IsNumeral(s: string) {
    var digits := Magnitude(s);
    |digits| > 0 && AllDigits(digits) && (digits[0] == '0' ==> s == "0")
  }

  /** Swift's `"\(i)"` / `String(i)` for an integer: the one numeral that
      denotes it, with a minus sign exactly when it is negative. */
  function FromInt(i: int): (r: string)
    ensures IsNumeral(r) && ParseInt(r) == Some(i)
    ensures i >= 0 <==> r[0] != '-'
  {
    if i < 0 then
      var r := "-" + FromNat(-i);
      assert r[1..] == FromNat(-i);
      r
    else
      var r := FromNat(i);
      assert IsDigit(r[0]);
      r
  }

  /** A numeral with a non-zero first digit denotes a positive number. */
  lemma {:induction false} ValuePositive(s: string)
    requires |s| > 0 && AllDigits(s) && s[0] != '0'
    ensures Value(s) > 0
    decreases |s|
  {
    if |s| > 1 {
      var prefix := s[..|s| - 1];
      assert prefix[0] == s[0];
      ValuePositive(prefix);
    }
  }

  /** Digits without a leading zero are the rendering of their value. */
  lemma {:induction false} FromNatValue(s: string)
    requires |s| > 0 && AllDigits(s) && (s[0] == '0' ==> s == "0")
    ensures FromNat(Value(s)) == s
    decreases |s|
  {
    var last := s[|s| - 1] as int - '0' as int;
    if |s| == 1 {
      assert Value(s) == last;
      assert FromNat(Value(s)) == [DigitChar(last)];
    } else {
      var prefix := s[..|s| - 1];
      assert prefix[0] == s[0];
      FromNatValue(prefix);
      ValuePositive(prefix);
      var v := Value(s);
      assert v == Value(prefix) * 10 + last && 0 <= last < 10;
      assert v / 10 == Value(prefix) && v % 10 == last;
      assert FromNat(v) == FromNat(v / 10) + [DigitChar(v % 10)];
      assert s == prefix + [s[|s| - 1]];
    }
  }

  /** Every numeral is the rendering of the integer it denotes, so the
      rendering of an integer is the only numeral for it. */
  lemma {:induction false} FromIntParseInt(s: string)
    requires IsNumeral(s)
    ensures ParseInt(s).Some? && FromInt(ParseInt(s).value) == s
  {
    var digits := Magnitude(s);
    FromNatValue(digits);
    if |s| > 0 && s[0] == '-' {
      assert digits[0] != '0';
      ValuePositive(digits);
      assert "-" + digits == s;
    } else {
      assert IsDigit(s[0]);
    }
  }

  /** One step of the rendering: the last digit follows the rest. */
  lemma FromNatStep(n: nat)
    requires n >= 10
    ensures FromNat(n) == FromNat(n / 10) + [DigitChar(n % 10)]
  {
  }

  /** The port 8080 is rendered `8080`. */
  lemma FromInt8080(i: int)
    requires i == 8080
    ensures FromInt(i) == "8080"
  {
    FromNatStep(i);
    FromNatStep(i / 10);
    FromNatStep(i / 100);
    assert FromNat(i / 1000) == [DigitChar(8)];
  }

  /** The digits of an optionally signed numeral (empty when the numeral is
      malformed), and whether it was negative. */
  function Unsigned(s: string): (string, bool) {
    if |s| > 0 && (s[0] == '+' || s[0] == '-') then (s[1..], s[0] == '-') else (s, false)
  }

  /** Swift's `UInt64(String)`: an optional `+` or `-`, then one or more
      ASCII digits. A value above `UInt64.max` is rejected, and so is a
      negative value other than zero ("-0" parses as 0). */
  function ParseUInt64(s: string): (r: Option<UInt64>)
    ensures r == (if ParseInt(s).Some? && 0 <= ParseInt(s).value <= UInt64Max then Some(ParseInt(s).value) else None)
  {
    var (digits, negative) := Unsigned(s);
    if |digits| == 0 || !AllDigits(digits) then None
    else if negative then (if Value(digits) == 0 then Some(0) else None)
    else if Value(digits) <= UInt64Max then Some(Value(digits))
    else None
  }

  /** Parsing of a signed decimal integer, without a width bound: the
      reference reading of `FromInt`. */
  function ParseInt(s: string): Option<int> {
    var (digits, negative) := Unsigned(s);
    if |digits| == 0 || !AllDigits(digits) then None
    else
      var v: int := Value(digits);
      Some(if negative then -v else v)
  }

  /** A leading `+` is accepted, "-0" is zero, any other negative numeral,
      a value past `UInt64.max` and a non-numeral are rejected. */
  lemma ParseUInt64Examples()
    ensures ParseUInt64("+7") == Some(7)
    ensures ParseUInt64("-0") == Some(0)
    ensures ParseUInt64("-1") == None
    ensures ParseUInt64(FromInt(UInt64Max + 1)) == None
    ensures ParseUInt64("7a") == None
    ensures ParseUInt64("") == None
  {
    assert Unsigned("+7").0 == "7";
    assert Unsigned("-0").0 == "0";
    assert Unsigned("-1").0 == "1";
    assert !IsDigit("7a"[1]);
  }

  /** The digits of any UInt64 parse back to it. */
  lemma ParseUInt64FromNat(v: UInt64)
    ensures ParseUInt64(FromNat(v)) == Some(v)
  {
    var s := FromNat(v);
    assert IsDigit(s[0]);
  }

  /** Rendering an integer and parsing it back is the identity. */
  lemma ParseIntFromInt(i: int)
    ensures ParseInt(FromInt(i)) == Some(i)
  {
    var s := FromInt(i);
    if i < 0 {
      assert s[1..] == FromNat(-i);
    } else {
      assert IsDigit(s[0]);
    }
  }
}

=== FILE: server.dfy ===
/** The Server endpoint (Server.swift): the discovery resource and the API
    roots it lists. */
module ServerEndpoint {
  import opened Wrappers
  import opened Text
  import opened TaxiiConnect
  import opened TaxiiProtocol
  import opened TaxiiConnection
  import ApiRootEndpoint

  /** A `Server`: the discovery path and the connection. */
  datatype Server = Server(path: string, conn: Conn)

  const Taxii21Path := "/taxii2/"
  const Taxii20Path := "/taxii/"

  /** Both discovery paths are already normalised. */
  lemma DiscoveryPathsNormal()
    ensures WithLastSlash(Taxii21Path) == Taxii21Path
    ensures WithLastSlash(Taxii20Path) == Taxii20Path
  {
    assert IsTrimmed(Taxii21Path) && Trim(Taxii21Path) == Taxii21Path;
    assert IsTrimmed(Taxii20Path) && Trim(Taxii20Path) == Taxii20Path;
  }

  /** `Server.init`: TAXII 2.1 servers are discovered at `/taxii2/`, every
      other version string at `/taxii/`; surrounding whitespace in the
      version is ignored. The source passes either path through
      `withLastSlash`, which leaves both unchanged (`DiscoveryPathsNormal`). */
  function New(conn: Conn): (s: Server)
    ensures s.conn == conn
    ensures Trim(conn.taxiiVersion) == "2.1" ==> s.path == Taxii21Path
    ensures Trim(conn.taxiiVersion) != "2.1" ==> s.path == Taxii20Path
  {
    if Trim(conn.taxiiVersion) == "2.1" then Server(Taxii21Path, conn) else Server(Taxii20Path, conn)
  }

  /** `discovery`: a GET of the discovery path appended to the base URL. */
  function Discovery(s: Server): (r: Call)
    ensures IsGet(r.request, s.conn, BaseURL(s.conn) + s.path, s.conn.media.taxii)
    ensures r.request.query.None? && r.decodes == DiscoveryResource
  {
    Call(FetchThis(s.conn, BaseURL(s.conn) + s.path, 0), DiscoveryResource)
  }

  /** The discovery request asks for the resource in the media type of the
      version the path was chosen for. */
  lemma DiscoveryMatchesVersion(conn: Conn)
    requires conn.media == MediaFor(conn.taxiiVersion)
    ensures var r := Discovery(New(conn)).request;
      && (Trim(conn.taxiiVersion) == "2.1" ==> r.path == BaseURL(conn) + "/taxii2/" && r.headers[AcceptHeader] == Media21.taxii)
      && (Trim(conn.taxiiVersion) != "2.1" ==> r.path == BaseURL(conn) + "/taxii/" && r.headers[AcceptHeader] == Media20.taxii)
  {
  }

  /** `getApirootStrings`: the listed API roots, or none when the resource
      or its list is absent; an error passes through. */
  function ApirootStrings(disco: Result<Option<TaxiiDiscovery>, APIError>): (r: Result<seq<string>, APIError>)
    ensures r.Failure? <==> disco.Failure?
    ensures disco.Failure? ==> r.error == disco.error
    ensures r.Success? && |r.value| > 0 ==> disco.value.Some? && disco.value.value.apiRoots == Some(r.value)
    ensures disco.Success? && disco.value.Some? && disco.value.value.apiRoots.Some? ==> r == Success(disco.value.value.apiRoots.value)
  {
    match disco
    case Failure(e) => Failure(e)
    case Success(None) => Success([])
    case Success(Some(d)) => Success(d.apiRoots.GetOr([]))
  }

  /** The one request `getAllRoots` makes for each listed root, in list
      order: the `get` of an `ApiRoot` on the same connection. */
  function RootCalls(s: Server, roots: seq<string>): (cs: seq<Call>)
    ensures |cs| == |roots|
    ensures forall i :: 0 <= i < |roots| ==>
      IsGet(cs[i].request, s.conn, WithLastSlash(roots[i]), s.conn.media.taxii) && cs[i].decodes == ApiRootResource
  {
    seq(|roots|, i requires 0 <= i < |roots| => ApiRootEndpoint.Get(ApiRootEndpoint.New(roots[i], s.conn)))
  }

  /** How a publisher ends: with one value, with no value, or with an
      error. */
  datatype Emission<+T> = Emitted(value: T) | Finished | Errored(error: APIError)

  /** The roots that came back: nil results are dropped (`compactMap`),
      the rest kept in request order. */
  function Compact(outs: seq<Result<Option<TaxiiApiRoot>, APIError>>): (rs: seq<TaxiiApiRoot>)
    ensures |rs| <= |outs|
  {
    if |outs| == 0 then []
    else
      var rest := Compact(outs[1..]);
      match outs[0]
      case Success(Some(r)) => [r] + rest
      case _ => rest
  }

  /** Every root kept came back from one of the requests, and every root
      that came back is kept. */
  lemma {:induction false} CompactContents(outs: seq<Result<Option<TaxiiApiRoot>, APIError>>)
    ensures forall x :: x in Compact(outs) <==> exists i :: 0 <= i < |outs| && outs[i] == Success(Some(x))
  {
    if |outs| > 0 {
      CompactContents(outs[1..]);
      forall x
        ensures x in Compact(outs) <==> exists i :: 0 <= i < |outs| && outs[i] == Success(Some(x))
      {
        if x in Compact(outs[1..]) {
          var j :| 0 <= j < |outs[1..]| && outs[1..][j] == Success(Some(x));
          assert outs[j + 1] == Success(Some(x));
        }
        if exists i :: 0 <= i < |outs| && outs[i] == Success(Some(x)) {
          var i :| 0 <= i < |outs| && outs[i] == Success(Some(x));
          if i > 0 {
            assert outs[1..][i - 1] == Success(Some(x));
          }
        }
      }
    }
  }

  /** Nothing is dropped exactly when every request returned a root. */
  lemma {:induction false} CompactKeepsAll(outs: seq<Result<Option<TaxiiApiRoot>, APIError>>)
    ensures |Compact(outs)| == |outs| <==> forall i :: 0 <= i < |outs| ==> outs[i].Success? && outs[i].value.Some?
  {
    if |outs| > 0 {
      CompactKeepsAll(outs[1..]);
      assert forall i :: 1 <= i < |outs| ==> outs[i] == outs[1..][i - 1];
    }
  }

  /** The first failed request, in request order. */
  function FirstFailure(outs: seq<Result<Option<TaxiiApiRoot>, APIError>>): (f: Option<APIError>)
    ensures f.None? <==> forall i :: 0 <= i < |outs| ==> outs[i].Success?
    ensures f.Some? ==> exists i :: 0 <= i < |outs| && outs[i] == Failure(f.value)
  {
    if |outs| == 0 then None
    else if outs[0].Failure? then Some(outs[0].error)
    else
      var f := FirstFailure(outs[1..]);
      assert forall i :: 1 <= i < |outs| ==> outs[i] == outs[1..][i - 1];
      f
  }

  /** What `flatMap` followed by `collect` may deliver once every request
      has ended. The requests run concurrently, so the error is that of
      whichever failed request ended first and the roots arrive in
      completion order: a failure yields some failed request's error, and
      otherwise the single value is a reordering of the roots that came
      back. */
  predicate CollectAllows(outs: seq<Result<Option<TaxiiApiRoot>, APIError>>, e: Emission<seq<TaxiiApiRoot>>) {
    if exists i :: 0 <= i < |outs| && outs[i].Failure? then
      e.Errored? && exists i :: 0 <= i < |outs| && outs[i] == Failure(e.error)
    else
      e.Emitted? && multiset(e.value) == multiset(Compact(outs))
  }

  /** One allowed ending: the first failure in request order, or the roots
      in request order. */
  function Collect(outs: seq<Result<Option<TaxiiApiRoot>, APIError>>): (e: Emission<seq<TaxiiApiRoot>>)
    ensures CollectAllows(outs, e)
    ensures e.Emitted? ==> |e.value| <= |outs|
  {
    match FirstFailure(outs)
    case Some(err) => Errored(err)
    case None => Emitted(Compact(outs))
  }

  /** The roots a discovery outcome lists, when it lists any. */
  function Listed(disco: Result<Option<TaxiiDiscovery>, APIError>): Option<seq<string>> {
    if disco.Success? && disco.value.Some? then disco.value.value.apiRoots else None
  }

  /** `getApiroots`, given the discovery outcome and the outcome of each
      root request: a discovery error ends the stream with that error; a
      nil discovery resource is dropped, so the stream finishes without a
      value; a resource without a list yields the empty list; otherwise
      the collected roots. */
  function GetApiroots(disco: Result<Option<TaxiiDiscovery>, APIError>,
                       outs: seq<Result<Option<TaxiiApiRoot>, APIError>>): (e: Emission<seq<TaxiiApiRoot>>)
    requires Listed(disco).Some? ==> |outs| == |Listed(disco).value|
    ensures disco.Failure? ==> e == Errored(disco.error)
    ensures disco == Success(None) ==> e == Finished
    ensures disco.Success? && disco.value.Some? && disco.value.value.apiRoots.None? ==> e == Emitted([])
    ensures Listed(disco).Some? ==> CollectAllows(outs, e)
  {
    match disco
    case Failure(err) => Errored(err)
    case Success(None) => Finished
    case Success(Some(d)) =>
      if d.apiRoots.None? then Emitted([]) else Collect(outs)
  }

  /** `getApiroots` and `getApirootStrings` agree when every root request
      returns a root: one root per listed string. They differ on a nil
      discovery resource, where the strings are the empty list but the
      roots publisher ends without a value. */
  lemma ApirootsMatchStrings(disco: Result<Option<TaxiiDiscovery>, APIError>,
                             outs: seq<Result<Option<TaxiiApiRoot>, APIError>>)
    requires Listed(disco).Some? ==> |outs| == |Listed(disco).value|
    requires forall i :: 0 <= i < |outs| ==> outs[i].Success? && outs[i].value.Some?
    ensures disco.Success? && disco.value.Some? ==>
      GetApiroots(disco, outs).Emitted? && |GetApiroots(disco, outs).value| == |ApirootStrings(disco).value|
    ensures disco == Success(None) ==> GetApiroots(disco, outs).Finished? && ApirootStrings(disco) == Success([])
  {
    if Listed(disco).Some? {
      CompactKeepsAll(outs);
    }
  }
}

=== FILE: status.dfy ===
/** The Status endpoint (Status.swift): the state of an earlier add-objects
    request. */
module StatusEndpoint {
  import opened Wrappers
  import opened Text
  import opened TaxiiConnect
  import opened TaxiiConnection

  /** A `Status` endpoint: its normalised API root, the status id and the
      connection. */
  datatype Status = Status(apiRoot: string, statusId: string, conn: Conn)

  /** `Status.init`: the status id is kept verbatim. */
  function New(apiRoot: string, statusId: string, conn: Conn): (s: Status)
    ensures s.apiRoot == WithLastSlash(apiRoot) && EndsWithSlash(s.apiRoot) && IsTrimmed(s.apiRoot)
    ensures s.statusId == statusId && s.conn == conn
  {
    Status(WithLastSlash(apiRoot), statusId, conn)
  }

  const StatusSegment := "status/"

  /** `thePath`: the root, `status/`, the id and a final `/`. The path ends
      in `/`, starts with the root, and holds the id unchanged, without
      trimming or escaping. */
  function ThePath(s: Status): (p: string)
    ensures EndsWithSlash(p)
    ensures StartsWith(p, s.apiRoot)
    ensures |p| == |s.apiRoot| + |StatusSegment| + |s.statusId| + 1
    ensures p[|s.apiRoot|..|s.apiRoot| + |StatusSegment|] == StatusSegment
    ensures p[|s.apiRoot| + |StatusSegment|..|p| - 1] == s.statusId
  {
    var p := s.apiRoot + StatusSegment + s.statusId + "/";
    assert p == s.apiRoot + (StatusSegment + s.statusId + "/");
    p
  }

  /** Distinct status ids give distinct paths under one root. */
  lemma ThePathInjective(s: Status, t: Status)
    requires s.apiRoot == t.apiRoot
    ensures ThePath(s) == ThePath(t) <==> s.statusId == t.statusId
  {
    if ThePath(s) == ThePath(t) {
      var k := |s.apiRoot| + |StatusSegment|;
      assert ThePath(s)[k..|ThePath(s)| - 1] == ThePath(t)[k..|ThePath(t)| - 1];
    }
  }

  /** `get`: a GET of `thePath` with the TAXII media type. */
  function Get(s: Status): (r: Call)
    ensures IsGet(r.request, s.conn, ThePath(s), s.conn.media.taxii) && r.request.query.None?
    ensures r.decodes == StatusResource
  {
    Call(FetchThis(s.conn, ThePath(s), 0), StatusResource)
  }
}

=== FILE: taxii_connect.dfy ===
/** The connection parameters of a TAXII 2.x client (TaxiiConnect.swift):
    host, port, scheme, credentials and protocol version, and what is
    derived from them — the base URL, the Basic credentials and the pair
    of media types. Also the client's error type. */
module TaxiiConnect {
  import opened Wrappers
  import opened Text
  import Decimal
  import Base64
  import Utf8

  // ---------------------------------------------------------------------
  // Errors

  /** Foundation's `URLError`; only its code and its localized description
      are observable here. */
  datatype URLError = URLError(code: int, localizedDescription: string)

  /** `APIError`: the one error type every request publishes. */
  datatype APIError =
    | Unknown
    | ApiError(reason: string)
    | ParserError(reason: string)
    | NetworkError(from: URLError)

  /** `APIError.errorDescription`: a fixed text for `unknown`, the carried
      reason for `apiError` and `parserError`, the URL error's own text for
      `networkError`. It is never nil. */
  function ErrorDescription(e: APIError): (r: Option<string>)
    ensures r.Some?
    ensures e.Unknown? ==> r == Some(UnknownErrorText)
    ensures (e.ApiError? || e.ParserError?) ==> r == Some(e.reason)
    ensures e.NetworkError? ==> r == Some(e.from.localizedDescription)
  {
    match e
    case Unknown => Some(UnknownErrorText)
    case ApiError(reason) => Some(reason)
    case ParserError(reason) => Some(reason)
    case NetworkError(from) => Some(from.localizedDescription)
  }

  const UnknownErrorText := "Unknown error"

  /** The description does not tell the cases apart: an api or parser error
      whose reason is "Unknown error" reads like `unknown`, and the two
      reason-carrying cases read alike. */
  lemma DescriptionsOverlap(reason: string)
    ensures ErrorDescription(ApiError(UnknownErrorText)) == ErrorDescription(Unknown)
    ensures ErrorDescription(ParserError(reason)) == ErrorDescription(ApiError(reason))
    ensures ApiError(reason) != ParserError(reason)
  {
  }

  // ---------------------------------------------------------------------
  // Trailing slashes

  /** `withLastSlash`: the trimmed string, with a `/` appended unless it
      already ends in one. */
  function WithLastSlash(url: string): (r: string)
    ensures EndsWithSlash(r) && IsTrimmed(r)
    ensures EndsWithSlash(Trim(url)) ==> r == Trim(url)
    ensures !EndsWithSlash(Trim(url)) ==> r == Trim(url) + "/"
  {
    var t := Trim(url);
    if EndsWithSlash(t) then t
    else
      TrimmedWithSlash(t);
      t + "/"
  }

  /** Normalising twice is normalising once. */
  lemma WithLastSlashIdempotent(url: string)
    ensures WithLastSlash(WithLastSlash(url)) == WithLastSlash(url)
  {
  }

  /** `withoutLastSlash`: when the trimmed string ends in `/`, that string
      minus exactly one `/`; otherwise the argument itself, untrimmed. */
  function WithoutLastSlash(url: string): (r: string)
    ensures EndsWithSlash(Trim(url)) ==> r + "/" == Trim(url)
    ensures !EndsWithSlash(Trim(url)) ==> r == url
  {
    var t := Trim(url);
    if EndsWithSlash(t) then t[..|t| - 1] else url
  }

  /** Removing the slash undoes adding it, for a trimmed string that did not
      end in one. */
  lemma WithoutUndoesWith(url: string)
    requires IsTrimmed(url) && !EndsWithSlash(url)
    ensures WithoutLastSlash(WithLastSlash(url)) == url
  {
    var w := WithLastSlash(url);
    assert w == url + "/" by { assert Trim(url) == url; }
    assert Trim(w) == w;
    AppendCancel(WithoutLastSlash(w), url, "/");
  }

  lemma AppendCancel(a: string, b: string, c: string)
    requires a + c == b + c
    ensures a == b
  {
    assert a == (a + c)[..|a|];
    assert b == (b + c)[..|b|];
  }

  /** Only one slash goes per call, so the operation is not idempotent, and
      surrounding whitespace survives when there is no slash to drop. */
  lemma WithoutLastSlashNotIdempotent()
    ensures WithoutLastSlash("a//") == "a/"
    ensures WithoutLastSlash(WithoutLastSlash("a//")) == "a"
    ensures WithoutLastSlash(" a ") == " a "
  {
    var s, t := "a//", "a/";
    assert IsTrimmed(s) && Trim(s) == s && s[..2] == t;
    assert IsTrimmed(t) && Trim(t) == t && t[..1] == "a";
    assert !EndsWithSlash(Trim(" a "));
  }

  // ---------------------------------------------------------------------
  // Media types

  /** The STIX content media type and the TAXII resource media type. */
  datatype Media = Media(stix: string, taxii: string)

  const Media21 := Media("application/stix+json;version=2.1", "application/taxii+json;version=2.1")
  const Media20 := Media("application/vnd.oasis.stix+json", "application/vnd.oasis.taxii+json")

  /** The media pair chosen in `init`: the TAXII 2.1 pair exactly when the
      trimmed version string is "2.1"; every other string, "2.0" included,
      selects the legacy vendor pair. */
  function MediaFor(taxiiVersion: string): (m: Media)
    ensures m == Media21 <==> Trim(taxiiVersion) == "2.1"
    ensures m == Media20 <==> Trim(taxiiVersion) != "2.1"
  {
    if Trim(taxiiVersion) == "2.1" then Media21 else Media20
  }

  /** The four media types are pairwise distinct, so the version and the
      STIX/TAXII choice can both be read back from the one chosen. */
  lemma MediaTypesDistinct()
    ensures Media21.stix != Media21.taxii && Media20.stix != Media20.taxii
    ensures {Media21.stix, Media21.taxii} !! {Media20.stix, Media20.taxii}
  {
  }

  // ---------------------------------------------------------------------
  // The connection

  /** A `TaxiiConnect` after `init`. The timeout and the URL session built
      from it are not part of the model. */
  datatype Conn = Conn(
    host: string,
    port: int,
    user: string,
    password: string,
    protokol: string,
    taxiiVersion: string,
    media: Media)

  const DefaultPort := -1
  const DefaultProtocol := "https"
  const DefaultVersion := "2.0"

  /** `TaxiiConnect.init`: the host loses one trailing slash, the other
      parameters are stored as given, and the media pair follows the
      version. */
  function Connect(host: string, port: int, user: string, password: string,
                   protokol: string, taxiiVersion: string): (c: Conn)
    ensures c.host == WithoutLastSlash(host)
    ensures c.port == port && c.user == user && c.password == password
    ensures c.protokol == protokol && c.taxiiVersion == taxiiVersion
    ensures c.media == MediaFor(taxiiVersion)
  {
    Conn(WithoutLastSlash(host), port, user, password, protokol, taxiiVersion, MediaFor(taxiiVersion))
  }

  /** With the default arguments the connection speaks TAXII 2.0 over https
      without an explicit port. */
  lemma ConnectDefaults(host: string, user: string, password: string)
    ensures var c := Connect(host, DefaultPort, user, password, DefaultProtocol, DefaultVersion);
      c.media == Media20 && BaseURL(c) == "https://" + Trim(WithoutLastSlash(host))
  {
    VersionNot21(DefaultVersion);
    HttpsScheme();
    var c := Connect(host, DefaultPort, user, password, DefaultProtocol, DefaultVersion);
    HttpsBaseURL(c);
    assert PortString(c.port) == "";
    assert "https://" + Trim(c.host) + "" == "https://" + Trim(c.host);
  }

  /** Over https the base URL is `https://`, the trimmed host and the port
      suffix. */
  lemma HttpsBaseURL(c: Conn)
    requires Lower(ProtocolValue(c.protokol)) == "https"
    ensures BaseURL(c) == "https://" + Trim(c.host) + PortString(c.port)
  {
    SchemePrefix();
  }

  /** A version string such as `2.0`, with a digit at each end and a last
      digit other than 1, is not trimmed to "2.1". */
  lemma VersionNot21(v: string)
    requires |v| > 0 && '0' <= v[0] <= '9' && '0' <= v[|v| - 1] <= '9' && v[|v| - 1] != '1'
    ensures Trim(v) != "2.1"
  {
    assert IsTrimmed(v);
    assert Trim(v) == v;
    assert v != "2.1";
  }

  /** `portString`: empty exactly when the port is -1; otherwise a colon
      and the port's decimal numeral, which parses back to the port. Other
      negative ports are not filtered out. */
  function PortString(port: int): (r: string)
    ensures r == "" <==> port == DefaultPort
    ensures port != DefaultPort ==> |r| > 1 && r[0] == ':' && r[1..] == Decimal.FromInt(port)
    ensures port != DefaultPort ==> Decimal.IsNumeral(r[1..]) && Decimal.ParseInt(r[1..]) == Some(port)
  {
    var digits := Decimal.FromInt(port);
    NumeralIsTrimmed(port);
    if |digits| == 0 || port == DefaultPort then ""
    else
      var r := ":" + Trim(digits);
      assert r[1..] == digits;
      Decimal.ParseIntFromInt(port);
      r
  }

  /** A decimal numeral has no whitespace to trim. */
  lemma NumeralIsTrimmed(i: int)
    ensures IsTrimmed(Decimal.FromInt(i))
  {
    var s := Decimal.FromInt(i);
    if i >= 0 {
      assert Decimal.IsDigit(s[0]) && Decimal.IsDigit(s[|s| - 1]);
    } else {
      assert s[1..] == Decimal.FromNat(-i);
      assert Decimal.IsDigit(s[|s| - 1]);
    }
  }

  /** `protocolValue`: the trimmed scheme with at most one trailing colon
      removed. */
  function ProtocolValue(protokol: string): (r: string)
    ensures var t := Trim(protokol);
      && (|t| > 0 && t[|t| - 1] == ':' ==> r + ":" == t)
      && (!(|t| > 0 && t[|t| - 1] == ':') ==> r == t)
  {
    var t := Trim(protokol);
    if |t| > 0 && t[|t| - 1] == ':' then t[..|t| - 1] else t
  }

  /** The default scheme is its own protocol value, already lower-case. */
  lemma HttpsScheme()
    ensures Lower(ProtocolValue("https")) == "https"
  {
    var s := "https";
    assert IsTrimmed(s) && Trim(s) == s;
    assert ProtocolValue(s) == s;
    LowerOfLowercase(s);
  }

  /** Surrounding whitespace goes before the colon is looked for, and only
      one colon is removed. */
  lemma ProtocolValueOneColon(ws1: string, p: string, ws2: string)
    requires AllSpace(ws1) && AllSpace(ws2) && IsTrimmed(p) && |p| > 0
    ensures ProtocolValue(ws1 + p + ":" + ws2) == p
    ensures ProtocolValue(p + "::") == p + ":"
  {
    ProtocolValueSpacedColon(ws1, p, ws2);
    ProtocolValueDoubleColon(p);
  }

  lemma ProtocolValueSpacedColon(ws1: string, p: string, ws2: string)
    requires AllSpace(ws1) && AllSpace(ws2) && IsTrimmed(p) && |p| > 0
    ensures ProtocolValue(ws1 + p + ":" + ws2) == p
  {
    assert ws1 + p + ":" + ws2 == ws1 + (p + ":") + ws2;
    TrimSurrounded(ws1, p + ":", ws2);
    assert (p + ":")[..|p|] == p;
  }

  lemma ProtocolValueDoubleColon(p: string)
    requires IsTrimmed(p) && |p| > 0
    ensures ProtocolValue(p + "::") == p + ":"
  {
    var q := p + ":";
    var d := q + ":";
    assert p + "::" == d;
    assert d[0] == p[0] && d[|d| - 1] == ':';
    assert Trim(d) == d;
    assert d[..|q|] == q;
  }

  /** `baseURL`: the lower-cased scheme, `://`, the trimmed host, then the
      port suffix; each part can be cut back out of the result. */
  function BaseURL(c: Conn): (r: string)
    ensures var scheme, host, port := Lower(ProtocolValue(c.protokol)), Trim(c.host), PortString(c.port);
      && |r| == |scheme| + 3 + |host| + |port|
      && r[..|scheme|] == scheme
      && r[|scheme|..|scheme| + 3] == "://"
      && r[|scheme| + 3..|r| - |port|] == host
      && r[|r| - |port|..] == port
  {
    var scheme, host, port := Lower(ProtocolValue(c.protokol)), Trim(c.host), PortString(c.port);
    PartsOfJoin(scheme, host, port);
    scheme + "://" + host + port
  }

  lemma PartsOfJoin(scheme: string, host: string, port: string)
    ensures var r := scheme + "://" + host + port;
      && |r| == |scheme| + 3 + |host| + |port|
      && r[..|scheme|] == scheme
      && r[|scheme|..|scheme| + 3] == "://"
      && r[|scheme| + 3..|r| - |port|] == host
      && r[|r| - |port|..] == port
  {
  }

  /** The base URLs of `https` and `example.com`: without a port, and
      with port 8080. */
  lemma BaseURLPorts(host: string, port: int, user: string, password: string, version: string)
    requires host == "example.com" && (port == DefaultPort || port == 8080)
    ensures port == DefaultPort ==> BaseURL(Connect(host, port, user, password, "https", version)) == "https://" + "example.com"
    ensures port == 8080 ==> BaseURL(Connect(host, port, user, password, "https", version)) == "https://" + "example.com" + ":8080"
  {
    assert IsTrimmed(host) && Trim(host) == host;
    assert WithoutLastSlash(host) == host;
    BaseURLExample(host, port, user, password, version);
    if port == 8080 {
      PortString8080(port);
    }
  }

  /** Port 8080 is written `:8080`. */
  lemma PortString8080(port: int)
    requires port == 8080
    ensures PortString(port) == ":8080"
  {
    Decimal.FromInt8080(port);
    PortStringOfNumeral(port, "8080");
  }

  /** A port other than -1 is written as a colon and its numeral. */
  lemma PortStringOfNumeral(port: int, numeral: string)
    requires port != DefaultPort && Decimal.FromInt(port) == numeral
    ensures PortString(port) == ":" + numeral
  {
    var r := PortString(port);
    assert r == [r[0]] + r[1..];
  }

  /** An upper-case scheme with a trailing colon gives the same base URL as
      the plain lower-case one. */
  lemma BaseURLNormalisesScheme(host: string, port: int, user: string, password: string, version: string)
    ensures BaseURL(Connect(host, port, user, password, "HTTPS:", version))
         == BaseURL(Connect(host, port, user, password, "https", version))
  {
    assert Lower(ProtocolValue("HTTPS:")) == "https" by {
      var p := "HTTPS:";
      assert IsTrimmed(p) && Trim(p) == p && p[..5] == "HTTPS";
      var l := Lower("HTTPS");
      assert l[0] == 'h' && l[1] == 't' && l[2] == 't' && l[3] == 'p' && l[4] == 's';
    }
    HttpsScheme();
  }

  /** With the https scheme the base URL is `https://`, the trimmed host
      without its last slash, and the port suffix. */
  lemma BaseURLExample(host: string, port: int, user: string, password: string, version: string)
    ensures BaseURL(Connect(host, port, user, password, "https", version))
         == "https://" + Trim(WithoutLastSlash(host)) + PortString(port)
  {
    HttpsScheme();
    HttpsBaseURL(Connect(host, port, user, password, "https", version));
  }

  lemma SchemePrefix()
    ensures "https" + "://" == "https://"
  {
  }

  // ---------------------------------------------------------------------
  // Credentials

  /** The text `hash()` encodes: `user:password`, as in section 2 of
      RFC 7617. */
  function Credentials(c: Conn): string {
    c.user + ":" + c.password
  }

  /** `hash()`: the base 64 encoding of the UTF-8 bytes of the credentials;
      decoding it gives back exactly those bytes. */
  function Hash(c: Conn): (r: string)
    ensures Base64.Decode(r) == Some(Utf8.Encode(Credentials(c)))
  {
    Base64.DecodeEncode(Utf8.Encode(Credentials(c)));
    Base64.Encode(Utf8.Encode(Credentials(c)))
  }

  /** A server can recover the user and the password from the token,
      provided the user name has no colon (which RFC 7617 forbids). */
  lemma {:induction false} HashRecoversCredentials(c: Conn)
    requires ':' !in c.user
    ensures Base64.Decode(Hash(c)).Some?
    ensures Utf8.Decode(Base64.Decode(Hash(c)).value) == Some(Credentials(c))
    ensures Split(Credentials(c), ':')[0] == c.user
  {
    Utf8.DecodeEncode(Credentials(c));
    SplitAfterPiece(c.user, ':', c.password);
    assert Credentials(c) == c.user + [':'] + c.password;
  }
}

=== FILE: taxii_connection.dfy ===
/** The request pipeline of a TAXII 2.x connection (TaxiiConnection.swift):
    the requests `fetchThis`, `fetchThisWithFilters`, `postThis` and
    `fetchRaw` build, and how a transport outcome is turned into a value or
    an `APIError`. The network itself is a parameter: a request is a value,
    and what came back is a `Transport` value. */
module TaxiiConnection {
  import opened Wrappers
  import opened Text
  import opened TaxiiConnect
  import opened TaxiiProtocol
  import Base64
  import Utf8

  // ---------------------------------------------------------------------
  // Requests

  datatype Method = Get | Post

  /** The `httpMethod` text of a method. */
  function MethodName(m: Method): (r: string)
    ensures r == "GET" <==> m == Get
    ensures m == Post ==> r == "POST"
  {
    match m
    case Get => "GET"
    case Post => "POST"
  }

  /** A `URLRequest`: the method, the path it was built from, the query
      parameters when there are any, the header fields and the body. */
  datatype Request = Request(
    verb: Method,
    path: string,
    query: Option<map<string, string>>,
    headers: map<string, string>,
    body: Option<seq<Byte>>)

  const VersionHeader := "version"
  const AuthorizationHeader := "Authorization"
  const AcceptHeader := "Accept"
  const ContentTypeHeader := "Content-Type"

  const BasicPrefix := "Basic "

  /** The media type a `headerType` selects: the STIX type for 1, the TAXII
      type for any other value. (The parameter's documentation promises the
      opposite: STIX for the default 0.) */
  function SelectMedia(c: Conn, headerType: int): (m: string)
    ensures headerType == 1 ==> m == c.media.stix
    ensures headerType != 1 ==> m == c.media.taxii
  {
    if headerType == 1 then c.media.stix else c.media.taxii
  }

  /** For a connection made by `init`, the default `headerType` 0 selects
      the TAXII media type, not the STIX one, whatever the version. */
  lemma DefaultHeaderTypeIsTaxii(host: string, port: int, user: string, password: string,
                                 protokol: string, version: string, headerType: int)
    ensures var c := Connect(host, port, user, password, protokol, version);
      && SelectMedia(c, 0) == c.media.taxii && SelectMedia(c, 0) != c.media.stix
      && (SelectMedia(c, headerType) == c.media.stix <==> headerType == 1)
  {
    MediaTypesDistinct();
  }

  /** The `Authorization` value: `Basic ` and the token of RFC 7617. */
  function Authorization(c: Conn): (r: string)
    ensures |r| >= |BasicPrefix| && r[..|BasicPrefix|] == BasicPrefix
    ensures Base64.Decode(r[|BasicPrefix|..]) == Some(Utf8.Encode(Credentials(c)))
  {
    var r := BasicPrefix + Hash(c);
    assert r[|BasicPrefix|..] == Hash(c);
    r
  }

  /** The four header fields every request carries. */
  function Headers(c: Conn, accept: string, contentType: string): map<string, string> {
    map[VersionHeader := c.taxiiVersion,
        AuthorizationHeader := Authorization(c),
        AcceptHeader := accept,
        ContentTypeHeader := contentType]
  }

  /** Exactly the four header fields: the version, credentials that decode
      to `user:password`, and the two media types given. */
  predicate HasHeaders(r: Request, c: Conn, accept: string, contentType: string) {
    && r.headers.Keys == {VersionHeader, AuthorizationHeader, AcceptHeader, ContentTypeHeader}
    && r.headers[VersionHeader] == c.taxiiVersion
    && |r.headers[AuthorizationHeader]| >= |BasicPrefix|
    && r.headers[AuthorizationHeader][..|BasicPrefix|] == BasicPrefix
    && Base64.Decode(r.headers[AuthorizationHeader][|BasicPrefix|..]) == Some(Utf8.Encode(Credentials(c)))
    && r.headers[AcceptHeader] == accept
    && r.headers[ContentTypeHeader] == contentType
  }

  /** A GET of `path` whose `Accept` and `Content-Type` are both `media`. */
  predicate IsGet(r: Request, c: Conn, path: string, media: string) {
    r.verb == Get && r.path == path && r.body.None? && HasHeaders(r, c, media, media)
  }

  lemma HeaderNamesDistinct()
    ensures |{VersionHeader, AuthorizationHeader, AcceptHeader, ContentTypeHeader}| == 4
  {
    var v, a, ac, ct := VersionHeader, AuthorizationHeader, AcceptHeader, ContentTypeHeader;
    assert v[0] == 'v' && a[0] == 'A' && a[1] == 'u' && ac[0] == 'A' && ac[1] == 'c' && ct[0] == 'C';
  }

  /** `fetchThis`: a GET of the path, with the media type `headerType`
      selects as both `Accept` and `Content-Type`. */
  function FetchThis(c: Conn, path: string, headerType: int): (r: Request)
    ensures IsGet(r, c, path, SelectMedia(c, headerType)) && r.query.None?
  {
    HeaderNamesDistinct();
    var m := SelectMedia(c, headerType);
    Request(Get, path, None, Headers(c, m, m), None)
  }

  /** `fetchThisWithFilters`: the same GET, with the query items of
      `asParameters`. */
  function FetchThisWithFilters(c: Conn, path: string, filters: Filters, headerType: int): (r: Request)
    ensures IsGet(r, c, path, SelectMedia(c, headerType))
    ensures r.query == Some(AsParameters(filters))
  {
    HeaderNamesDistinct();
    var m := SelectMedia(c, headerType);
    Request(Get, path, Some(AsParameters(filters)), Headers(c, m, m), None)
  }

  /** `postThis`: a POST of the JSON bytes unchanged, accepting the TAXII
      type and sending the STIX type, whatever the caller's preference. */
  function PostThis(c: Conn, path: string, jsonData: seq<Byte>): (r: Request)
    ensures r.verb == Post && r.path == path && r.query.None?
    ensures HasHeaders(r, c, c.media.taxii, c.media.stix)
    ensures r.body == Some(jsonData)
  {
    HeaderNamesDistinct();
    Request(Post, path, None, Headers(c, c.media.taxii, c.media.stix), Some(jsonData))
  }

  /** `fetchRaw` sends exactly the request `fetchThis` sends. */
  function FetchRaw(c: Conn, path: string, headerType: int): (r: Request)
    ensures IsGet(r, c, path, SelectMedia(c, headerType)) && r.query.None?
  {
    FetchThis(c, path, headerType)
  }

  /** The headers and the method of any GET built here differ from those of
      a POST only by the media types. */
  lemma GetAndPostHeaders(c: Conn, path: string, headerType: int, body: seq<Byte>)
    ensures FetchThis(c, path, headerType).headers[AuthorizationHeader]
         == PostThis(c, path, body).headers[AuthorizationHeader]
    ensures FetchThis(c, path, 1).headers[ContentTypeHeader] == PostThis(c, path, body).headers[ContentTypeHeader]
    ensures FetchThis(c, path, 0).headers[AcceptHeader] == PostThis(c, path, body).headers[AcceptHeader]
  {
  }

  // ---------------------------------------------------------------------
  // The query string

  /** `order` lists every key of `params` exactly once: an iteration order of
      the dictionary, which Swift leaves unspecified. */
  predicate IsOrderOf(order: seq<string>, params: map<string, string>) {
    && |order| == |params.Keys|
    && (forall i :: 0 <= i < |order| ==> order[i] in params)
    && (forall i, j :: 0 <= i < j < |order| ==> order[i] != order[j])
  }

  /** `params.map { URLQueryItem(name: key, value: value) }` in the order
      `order`. */
  function QueryItems(params: map<string, string>, order: seq<string>): (items: seq<(string, string)>)
    requires IsOrderOf(order, params)
    ensures |items| == |params|
    ensures forall i :: 0 <= i < |items| ==> items[i].0 in params && items[i].1 == params[items[i].0]
    ensures forall k :: k in params ==> exists i :: 0 <= i < |items| && items[i].0 == k
  {
    var items := seq(|order|, i requires 0 <= i < |order| => (order[i], params[order[i]]));
    forall k | k in params
      ensures exists i :: 0 <= i < |items| && items[i].0 == k
    {
      OrderCoversKeys(order, params, k);
      var i :| 0 <= i < |order| && order[i] == k;
      assert items[i].0 == k;
    }
    items
  }

  /** An order of a dictionary lists every one of its keys. */
  lemma OrderCoversKeys(order: seq<string>, params: map<string, string>, k: string)
    requires IsOrderOf(order, params) && k in params
    ensures k in order
  {
    var listed := set i | 0 <= i < |order| :: order[i];
    assert listed <= params.Keys;
    ListedCount(order);
    var rest := params.Keys - listed;
    assert params.Keys == listed + rest && listed !! rest;
    assert |rest| == 0;
    assert k in listed;
  }

  /** A list without repetitions has as many distinct elements as entries. */
  lemma {:induction false} ListedCount(order: seq<string>)
    requires forall i, j :: 0 <= i < j < |order| ==> order[i] != order[j]
    ensures |set i | 0 <= i < |order| :: order[i]| == |order|
    decreases |order|
  {
    if |order| > 0 {
      var rest := order[..|order| - 1];
      ListedCount(rest);
      var a := set i | 0 <= i < |rest| :: rest[i];
      var b := set i | 0 <= i < |order| :: order[i];
      var last := order[|order| - 1];
      assert b == a + {last};
      assert last !in a;
    }
  }

  /** The query as URLComponents writes it: `name=value` items joined by
      `&`, each part through the percent-encoding `escape` of the query
      component (a parameter: Foundation's encoder is not modelled). */
  function EncodeQuery(items: seq<(string, string)>, escape: string -> string): string {
    Join(seq(|items|, i requires 0 <= i < |items| => escape(items[i].0) + "=" + escape(items[i].1)), '&')
  }

  /** `percentEncodedQuery` after the `+` rewrite: no `+` is left, and the
      rewrite is undone by reading `%2B` back as `+` when the encoder never
      produced `%2B` itself. */
  function PercentEncodedQuery(params: map<string, string>, order: seq<string>, escape: string -> string): (q: string)
    requires IsOrderOf(order, params)
    ensures '+' !in q
    ensures NoEscapedPlus(EncodeQuery(QueryItems(params, order), escape)) ==>
      UnescapePlus(q) == EncodeQuery(QueryItems(params, order), escape)
  {
    var encoded := EncodeQuery(QueryItems(params, order), escape);
    if NoEscapedPlus(encoded) then
      EscapePlusInvertible(encoded);
      EscapePlus(encoded)
    else
      EscapePlus(encoded)
  }

  /** Rewriting an already rewritten query changes nothing. */
  lemma QueryRewriteIdempotent(params: map<string, string>, order: seq<string>, escape: string -> string)
    requires IsOrderOf(order, params)
    ensures EscapePlus(PercentEncodedQuery(params, order, escape)) == PercentEncodedQuery(params, order, escape)
  {
  }

  // ---------------------------------------------------------------------
  // Responses

  /** What `URLSession` hands back: an HTTP response with its status code,
      or a response of another kind. */
  datatype Response = NotHttp | Http(statusCode: int)

  /** The outcome of a data task: the body and the response, or the
      `URLError` the task failed with. */
  datatype Transport = Received(data: seq<Byte>, response: Response) | Failed(error: URLError)

  /** An error as it reaches `mapError`: one of ours, a `URLError`, or
      anything else. */
  datatype Thrown = ThrownApi(api: APIError) | ThrownUrl(url: URLError) | ThrownOther

  const UnauthorizedReason := "Unauthorized"
  const ForbiddenReason := "Resource forbidden"
  const NotFoundReason := "Resource not found"
  const ClientErrorReason := "client error"
  const ServerErrorReason := "server error"

  /** The status checks of the `tryMap` step, first match wins. Any other
      code, 400 and 402 among them, lets the body through. */
  function StatusError(code: int): (r: Option<APIError>)
    ensures r.Some? ==> r.value.ApiError?
    ensures r.Some? <==> code == 401 || code == 403 || code == 404 || 405 <= code < 600
    ensures code == 401 ==> r == Some(ApiError(UnauthorizedReason))
    ensures code == 403 ==> r == Some(ApiError(ForbiddenReason))
    ensures code == 404 ==> r == Some(ApiError(NotFoundReason))
    ensures 405 <= code < 500 ==> r == Some(ApiError(ClientErrorReason))
    ensures 500 <= code < 600 ==> r == Some(ApiError(ServerErrorReason))
  {
    if code == 401 then Some(ApiError(UnauthorizedReason))
    else if code == 403 then Some(ApiError(ForbiddenReason))
    else if code == 404 then Some(ApiError(NotFoundReason))
    else if 405 <= code < 500 then Some(ApiError(ClientErrorReason))
    else if 500 <= code < 600 then Some(ApiError(ServerErrorReason))
    else None
  }

  /** The check of a response: a non-HTTP response is `unknown`. */
  function CheckResponse(response: Response): (r: Option<APIError>)
    ensures response.NotHttp? ==> r == Some(Unknown)
    ensures response.Http? ==> r == StatusError(response.statusCode)
  {
    match response
    case NotHttp => Some(Unknown)
    case Http(code) => StatusError(code)
  }

  /** The `mapError` coercion: our errors pass unchanged, a `URLError` is
      wrapped, anything else is `unknown`. */
  function MapError(e: Thrown): (r: APIError)
    ensures e.ThrownApi? ==> r == e.api
    ensures e.ThrownUrl? ==> r == NetworkError(e.url)
    ensures e.ThrownOther? ==> r == Unknown
  {
    match e
    case ThrownApi(a) => a
    case ThrownUrl(u) => NetworkError(u)
    case ThrownOther => Unknown
  }

  /** `fetchRaw`'s pipeline: the body bytes unchanged when the response
      passes the checks. */
  function InterpretRaw(t: Transport): (r: Result<seq<Byte>, APIError>)
    ensures r.Success? <==> t.Received? && CheckResponse(t.response).None?
    ensures r.Success? ==> r.value == t.data
    ensures t.Received? && CheckResponse(t.response).Some? ==> r == Failure(CheckResponse(t.response).value)
    ensures t.Failed? ==> r == Failure(NetworkError(t.error))
  {
    match t
    case Failed(u) => Failure(MapError(ThrownUrl(u)))
    case Received(data, response) =>
      match CheckResponse(response)
      case Some(e) => Failure(MapError(ThrownApi(e)))
      case None => Success(data)
  }

  /** `doDataTaskPublish`'s pipeline: the same checks, then the body through
      `decode`, a body that does not decode giving nil rather than an error
      (`try?`). */
  function Interpret<T>(t: Transport, decode: seq<Byte> -> Option<T>): (r: Result<Option<T>, APIError>)
    ensures r.Success? <==> t.Received? && CheckResponse(t.response).None?
    ensures r.Success? ==> r.value == decode(t.data)
    ensures t.Received? && CheckResponse(t.response).Some? ==> r == Failure(CheckResponse(t.response).value)
    ensures t.Failed? ==> r == Failure(NetworkError(t.error))
  {
    match t
    case Failed(u) => Failure(MapError(ThrownUrl(u)))
    case Received(data, response) =>
      match CheckResponse(response)
      case Some(e) => Failure(MapError(ThrownApi(e)))
      case None => Success(decode(data))
  }

  /** The typed and the raw pipelines classify every outcome alike and fail
      with the same error; on success the typed value is the decoding of the
      raw bytes. */
  lemma TypedAndRawAgree<T>(t: Transport, decode: seq<Byte> -> Option<T>)
    ensures Interpret(t, decode).Success? <==> InterpretRaw(t).Success?
    ensures Interpret(t, decode).Failure? ==> Interpret(t, decode).error == InterpretRaw(t).error
    ensures InterpretRaw(t).Success? ==> Interpret(t, decode) == Success(decode(InterpretRaw(t).value))
  {
  }

  /** The classes of section 15.5 (4xx) and section 15.6 (5xx) of RFC 9110. */
  predicate IsClientError(code: int) { 400 <= code < 500 }
  predicate IsServerError(code: int) { 500 <= code < 600 }

  /** Every server error and every client error but 400 and 402 is an
      error; nothing outside those classes is. */
  lemma StatusClasses(code: int)
    ensures IsServerError(code) ==> StatusError(code) == Some(ApiError(ServerErrorReason))
    ensures IsClientError(code) ==> (StatusError(code).None? <==> code == 400 || code == 402)
    ensures !IsClientError(code) && !IsServerError(code) ==> StatusError(code).None?
  {
  }

  /** The reason a rejected response carries tells back which code, or
      which class of codes, was answered: the texts are an inverse of the
      status checks. */
  lemma ReasonIdentifiesStatus(code: int)
    ensures StatusError(code) == Some(ApiError(UnauthorizedReason)) <==> code == 401
    ensures StatusError(code) == Some(ApiError(ForbiddenReason)) <==> code == 403
    ensures StatusError(code) == Some(ApiError(NotFoundReason)) <==> code == 404
    ensures StatusError(code) == Some(ApiError(ClientErrorReason)) <==> IsClientError(code) && code !in {400, 401, 402, 403, 404}
    ensures StatusError(code) == Some(ApiError(ServerErrorReason)) <==> IsServerError(code)
  {
    ReasonsDistinct();
  }

  /** 200, a redirect, 400, 402 and a code above 599 all deliver the body. */
  lemma SuccessCodes(data: seq<Byte>, code: int)
    requires code == 200 || 300 <= code < 400 || code == 400 || code == 402 || code >= 600
    ensures InterpretRaw(Received(data, Http(code))) == Success(data)
  {
  }

  /** The reasons tell the five error cases apart. */
  lemma ReasonsDistinct()
    ensures |{UnauthorizedReason, ForbiddenReason, NotFoundReason, ClientErrorReason, ServerErrorReason}| == 5
  {
    var u, f, n, c, s := UnauthorizedReason, ForbiddenReason, NotFoundReason, ClientErrorReason, ServerErrorReason;
    assert u[0] == 'U' && f[0] == 'R' && n[0] == 'R' && c[0] == 'c' && s[0] == 's';
    assert f[9] == 'f' && n[9] == 'n';
  }

  /** Every error a pipeline publishes has a description, and a network
      failure is described by the URL error's own text. */
  lemma ErrorsDescribed(t: Transport)
    requires InterpretRaw(t).Failure?
    ensures ErrorDescription(InterpretRaw(t).error).Some?
    ensures t.Failed? ==> ErrorDescription(InterpretRaw(t).error) == Some(t.error.localizedDescription)
    ensures t.Received? && t.response.NotHttp? ==> ErrorDescription(InterpretRaw(t).error) == Some(UnknownErrorText)
  {
  }

  // ---------------------------------------------------------------------
  // Calls made by the endpoints

  /** The resource type a call decodes its body as (`taxiiType`), or raw
      bytes. */
  datatype Expect =
    | DiscoveryResource
    | ApiRootResource
    | CollectionsResource
    | StatusResource
    | BundleResource
    | EnvelopeResource
    | VersionsResource
    | ManifestRecordResource
    | AnyJson
    | RawBytes

  /** One request an endpoint method issues, and what it expects back. */
  datatype Call = Call(request: Request, decodes: Expect)
}

=== FILE: taxii_protocol.dfy ===
/** The TAXII 2.x resources the client exchanges (TaxiiProtocol.swift): the
    lenient `TaxiiInt` scalar, the resource records with their id-only
    equality and order, the discovery resource's coding keys, and the
    URL filter parameters. */
module TaxiiProtocol {
  import opened Wrappers
  import opened Text
  import Decimal

  // ---------------------------------------------------------------------
  // JSON values

  type Positive = n: int | n > 0 witness 1

  /** A JSON value. A number is kept exactly, as the fraction num/den of
      the decimal literal it was written as. */
  datatype Json =
    | JNull
    | JBool(b: bool)
    | JNumber(num: int, den: Positive)
    | JString(s: string)
    | JArray(items: seq<Json>)
    | JObject(fields: map<string, Json>)

  /** What a `Decodable` initializer can end in: a value, a thrown
      `DecodingError`, or a runtime trap of a failed integer conversion. */
  datatype Decoding<+T> = Decoded(value: T) | Rejected | Trapped

  const Int64Min: int := -0x8000_0000_0000_0000
  const Int64Max: int := 0x7FFF_FFFF_FFFF_FFFF

  // ---------------------------------------------------------------------
  // TaxiiInt

  /** `TaxiiInt`: a `UInt64` that servers sometimes send as a string. */
  datatype TaxiiInt = TaxiiInt(value: Decimal.UInt64)

  /** The fraction num/den rounded toward zero, as Swift's `UInt64(Double)`
      and `Int(Double)` round. */
  function Truncated(num: int, den: Positive): (t: int)
    ensures num >= 0 ==> 0 <= t && t * den <= num < (t + 1) * den
    ensures num < 0 ==> t <= 0 && (t - 1) * den < num <= t * den
  {
    if num >= 0 then
      DivBounds(num, den);
      num / den
    else
      var q := (-num) / den;
      DivBounds(-num, den);
      assert (-q - 1) * den == -((q + 1) * den) && -q * den == -(q * den);
      -q
  }

  /** The quotient of a non-negative number brackets it between two
      consecutive multiples of the divisor. */
  lemma DivBounds(a: int, d: Positive)
    requires a >= 0
    ensures var q := a / d; 0 <= q && q * d <= a < (q + 1) * d
  {
    var q, r := a / d, a % d;
    assert a == q * d + r && 0 <= r < d;
    assert (q + 1) * d == q * d + d;
  }

  /** A number without a fractional part is its own truncation. */
  lemma TruncatedIntegral(num: int, den: Positive)
    requires num % den == 0
    ensures Truncated(num, den) == num / den
  {
    var q := num / den;
    assert num == q * den;
    if num < 0 {
      DivExact(-num, den, -q);
    }
  }

  /** Exact division gives back the factor. */
  lemma DivExact(a: int, d: Positive, q: int)
    requires a == q * d
    ensures a / d == q
  {
    var x := a / d - q;
    assert d * x == -(a % d);
    if x >= 1 {
      assert false;
    } else if x <= -1 {
      assert false;
    }
  }

  /** Swift's `UInt64(_: Int)`: traps on a negative argument. */
  function UInt64OfInt(i: int): Decoding<TaxiiInt> {
    if 0 <= i <= Decimal.UInt64Max then Decoded(TaxiiInt(i)) else Trapped
  }

  /** Swift's `UInt64(_: Double)`: truncates toward zero and traps when the
      result is out of range. */
  function UInt64OfDouble(num: int, den: Positive): Decoding<TaxiiInt> {
    var t := Truncated(num, den);
    if 0 <= t <= Decimal.UInt64Max then Decoded(TaxiiInt(t)) else Trapped
  }

  /** `TaxiiInt.init(from:)`. The decoder tries, in order, a `UInt64` (an
      integral number in range), an `Int` (an integral number in the 64-bit
      signed range, then converted), a `Double` (any number, then
      converted) and a `String` (parsed, 0 when that fails); only a value
      that is neither a number nor a string is rejected.
      Every numeric branch amounts to truncation toward zero, and a number
      whose truncation is negative or above `UInt64.max` traps. */
  function DecodeTaxiiInt(j: Json): (r: Decoding<TaxiiInt>)
    ensures r.Rejected? <==> !(j.JNumber? || j.JString?)
    ensures r.Trapped? ==> j.JNumber?
    ensures j.JNumber? ==>
      (r.Decoded? <==> 0 <= Truncated(j.num, j.den) <= Decimal.UInt64Max)
    ensures j.JNumber? && r.Decoded? ==> r.value.value == Truncated(j.num, j.den)
    ensures j.JString? ==> r.Decoded?
    ensures j.JString? && Decimal.ParseUInt64(j.s).Some? ==> r == Decoded(TaxiiInt(Decimal.ParseUInt64(j.s).value))
    ensures j.JString? && Decimal.ParseUInt64(j.s).None? ==> r == Decoded(TaxiiInt(0))
  {
    match j
    case JNumber(num, den) =>
      if num % den == 0 && 0 <= num / den <= Decimal.UInt64Max then
        TruncatedIntegral(num, den);
        Decoded(TaxiiInt(num / den))
      else if num % den == 0 && Int64Min <= num / den <= Int64Max then
        TruncatedIntegral(num, den);
        UInt64OfInt(num / den)
      else
        UInt64OfDouble(num, den)
    case JString(s) => Decoded(TaxiiInt(Decimal.ParseUInt64(s).GetOr(0)))
    case _ => Rejected
  }

  /** `TaxiiInt.encode(to:)`: the plain unsigned number. */
  function EncodeTaxiiInt(t: TaxiiInt): (j: Json)
    ensures j.JNumber? && j.num >= 0
  {
    JNumber(t.value, 1)
  }

  /** Decoding what was encoded gives back the value. */
  lemma TaxiiIntRoundTrip(t: TaxiiInt)
    ensures DecodeTaxiiInt(EncodeTaxiiInt(t)) == Decoded(t)
  {
    var j := EncodeTaxiiInt(t);
    assert Truncated(j.num, j.den) == t.value;
  }

  /** The numeral of a value, as a string, decodes like the number itself. */
  lemma TaxiiIntFromString(v: Decimal.UInt64)
    ensures DecodeTaxiiInt(JString(Decimal.FromNat(v))) == Decoded(TaxiiInt(v))
    ensures DecodeTaxiiInt(JString(Decimal.FromNat(v))) == DecodeTaxiiInt(JNumber(v, 1))
  {
    Decimal.ParseUInt64FromNat(v);
    assert Truncated(v, 1) == v;
  }

  /** A numeral string with a sign or leading zeros still decodes to its
      value, as `UInt64(String)` reads it. */
  lemma TaxiiIntSignedAndPadded()
    ensures DecodeTaxiiInt(JString("+7")) == Decoded(TaxiiInt(7))
    ensures DecodeTaxiiInt(JString("007")) == Decoded(TaxiiInt(7))
    ensures DecodeTaxiiInt(JString("-0")) == Decoded(TaxiiInt(0))
  {
    assert Decimal.ParseUInt64("+7") == Some(7) && Decimal.ParseUInt64("-0") == Some(0) by {
      Decimal.ParseUInt64Examples();
    }
    assert Decimal.ParseUInt64("007") == Some(7) by {
      var d := "007";
      assert Decimal.Unsigned(d).0 == d && Decimal.AllDigits(d);
      assert d[..2] == "00" && d[..2][..1] == "0";
      assert Decimal.Value("0") == 0;
      assert Decimal.Value("00") == 0;
      assert Decimal.Value(d) == 7;
    }
  }

  /** A string that is not an unsigned numeral in range is read as 0 rather
      than rejected; a negative integer traps, while a negative fraction
      above -1 truncates to 0. */
  lemma TaxiiIntLenient(s: string, n: int, frac: int)
    requires Decimal.ParseUInt64(s).None?
    requires n < 0
    requires -10 < frac < 0
    ensures DecodeTaxiiInt(JString(s)) == Decoded(TaxiiInt(0))
    ensures DecodeTaxiiInt(JNumber(n, 1)).Trapped?
    ensures DecodeTaxiiInt(JNumber(frac, 10)) == Decoded(TaxiiInt(0))
  {
    assert Truncated(n, 1) == n;
    assert Truncated(frac, 10) == 0;
  }

  /** A fractional number is truncated: 42.9 reads as 42. */
  lemma TaxiiIntTruncates()
    ensures DecodeTaxiiInt(JNumber(429, 10)) == Decoded(TaxiiInt(42))
  {
    assert Truncated(429, 10) == 42;
  }

  // ---------------------------------------------------------------------
  // Id-only equality and order

  /** Swift's `<` on ids is a strict total order: exactly one of `a < b`,
      `a == b`, `b < a` holds. */
  lemma IdOrder(a: string, b: string)
    ensures Less(a, b) || a == b || Less(b, a)
    ensures !(Less(a, b) && Less(b, a))
    ensures a == b ==> !Less(a, b)
  {
    LessTotal(a, b);
    LessIrreflexive(a);
    if Less(a, b) && Less(b, a) {
      LessTransitive(a, b, a);
      assert false;
    }
  }

  /** `TaxiiDiscovery`. Its id is a fresh UUID string of each instance,
      never read from or written to JSON. */
  datatype TaxiiDiscovery = TaxiiDiscovery(
    id: string,
    title: string,
    description: Option<string>,
    contact: Option<string>,
    defaultApi: Option<string>,
    apiRoots: Option<seq<string>>)
  {
    predicate Same(o: TaxiiDiscovery) { id == o.id }
    predicate Precedes(o: TaxiiDiscovery) { Less(id, o.id) }
  }

  /** `TaxiiApiRoot`; its id is a fresh UUID string. */
  datatype TaxiiApiRoot = TaxiiApiRoot(
    id: string,
    title: string,
    versions: seq<string>,
    maxContentLength: TaxiiInt,
    description: Option<string>)
  {
    predicate Same(o: TaxiiApiRoot) { id == o.id }
    predicate Precedes(o: TaxiiApiRoot) { Less(id, o.id) }
  }

  /** `TaxiiStatusFailure` (TAXII 2.0 only). */
  datatype TaxiiStatusFailure = TaxiiStatusFailure(id: string, message: Option<seq<string>>)
  {
    predicate Same(o: TaxiiStatusFailure) { id == o.id }
    predicate Precedes(o: TaxiiStatusFailure) { Less(id, o.id) }
  }

  /** `TaxiiStatusDetails`. */
  datatype TaxiiStatusDetails = TaxiiStatusDetails(id: string, version: string, message: Option<seq<string>>)
  {
    predicate Same(o: TaxiiStatusDetails) { id == o.id }
    predicate Precedes(o: TaxiiStatusDetails) { Less(id, o.id) }
  }

  /** `TaxiiStatus`: the state of an add-objects request. */
  datatype TaxiiStatus = TaxiiStatus(
    id: string,
    status: string,
    totalCount: TaxiiInt,
    successCount: TaxiiInt,
    failureCount: TaxiiInt,
    pendingCount: TaxiiInt,
    requestTimestamp: Option<string>,
    failures: Option<seq<TaxiiStatusDetails>>,
    pendings: Option<seq<TaxiiStatusDetails>>,
    successes: Option<seq<TaxiiStatusDetails>>)
  {
    predicate Same(o: TaxiiStatus) { id == o.id }
    predicate Precedes(o: TaxiiStatus) { Less(id, o.id) }
  }

  /** `TaxiiErrorMessage`; its id is a fresh UUID string. */
  datatype TaxiiErrorMessage = TaxiiErrorMessage(
    id: string,
    title: string,
    description: Option<seq<string>>,
    errorId: Option<seq<string>>,
    errorCode: Option<seq<string>>,
    httpStatus: Option<seq<string>>,
    externalDetails: Option<seq<string>>,
    details: Option<map<string, string>>)
  {
    predicate Same(o: TaxiiErrorMessage) { id == o.id }
    predicate Precedes(o: TaxiiErrorMessage) { Less(id, o.id) }
  }

  /** `TaxiiCollection`. */
  datatype TaxiiCollection = TaxiiCollection(
    id: string,
    title: string,
    canRead: bool,
    canWrite: bool,
    description: Option<string>,
    alias: Option<string>,
    mediaTypes: Option<seq<string>>)
  {
    predicate Same(o: TaxiiCollection) { id == o.id }
    predicate Precedes(o: TaxiiCollection) { Less(id, o.id) }
  }

  /** `TaxiiCollections`; its id is a fresh UUID string. */
  datatype TaxiiCollections = TaxiiCollections(id: string, collections: Option<seq<TaxiiCollection>>)
  {
    predicate Same(o: TaxiiCollections) { id == o.id }
    predicate Precedes(o: TaxiiCollections) { Less(id, o.id) }
  }

  /** `TaxiiManifestEntry` (TAXII 2.0 only). */
  datatype TaxiiManifestEntry = TaxiiManifestEntry(
    id: string,
    dateAdded: Option<seq<string>>,
    versions: Option<seq<string>>,
    mediaTypes: Option<seq<string>>)
  {
    predicate Same(o: TaxiiManifestEntry) { id == o.id }
    predicate Precedes(o: TaxiiManifestEntry) { Less(id, o.id) }
  }

  /** `TaxiiManifestRecord`. */
  datatype TaxiiManifestRecord = TaxiiManifestRecord(
    id: string,
    dateAdded: seq<string>,
    versions: seq<string>,
    mediaTypes: Option<seq<string>>)
  {
    predicate Same(o: TaxiiManifestRecord) { id == o.id }
    predicate Precedes(o: TaxiiManifestRecord) { Less(id, o.id) }
  }

  /** `TaxiiManifestResource`; its id is a fresh UUID string. */
  datatype TaxiiManifestResource = TaxiiManifestResource(
    id: string,
    more: Option<bool>,
    objects: Option<seq<TaxiiManifestRecord>>)
  {
    predicate Same(o: TaxiiManifestResource) { id == o.id }
    predicate Precedes(o: TaxiiManifestResource) { Less(id, o.id) }
  }

  /** `TaxiiVersionResource`; its id is a fresh UUID string. */
  datatype TaxiiVersionResource = TaxiiVersionResource(id: string, more: Option<bool>, versions: Option<seq<string>>)
  {
    predicate Same(o: TaxiiVersionResource) { id == o.id }
    predicate Precedes(o: TaxiiVersionResource) { Less(id, o.id) }
  }

  /** `TaxiiBundle` (TAXII 2.0 only); its STIX objects stay opaque JSON. */
  datatype TaxiiBundle = TaxiiBundle(
    bundleType: string,
    id: string,
    specVersion: string,
    objects: Option<seq<Json>>)
  {
    predicate Same(o: TaxiiBundle) { id == o.id }
    predicate Precedes(o: TaxiiBundle) { Less(id, o.id) }
  }

  /** `TaxiiEnvelope`; its id is a fresh UUID string. */
  datatype TaxiiEnvelope = TaxiiEnvelope(
    id: string,
    more: Option<bool>,
    next: Option<string>,
    objects: Option<seq<Json>>)
  {
    predicate Same(o: TaxiiEnvelope) { id == o.id }
    predicate Precedes(o: TaxiiEnvelope) { Less(id, o.id) }
  }

  /** `<` is a strict total order on discovery resources, consistent with
      their id-only `==`: equal resources precede each other in neither
      direction. Every other resource type defines `Same` and `Precedes` by
      the same two lines, so the same holds of each. */
  lemma DiscoveryIdOrder(a: TaxiiDiscovery, b: TaxiiDiscovery)
    ensures a.Same(b) ==> !a.Precedes(b) && !b.Precedes(a)
    ensures a.Precedes(b) || a.Same(b) || b.Precedes(a)
    ensures !(a.Precedes(b) && b.Precedes(a)) && !a.Precedes(a)
  {
    IdOrder(a.id, b.id);
    LessIrreflexive(a.id);
  }

  /** Two collections that differ in everything but their id are equal,
      and two that agree in everything but their id are not. */
  lemma CollectionEqualityIgnoresContent(a: TaxiiCollection, title: string, canRead: bool, id: string)
    ensures a.Same(a.(title := title, canRead := canRead, canWrite := !a.canWrite, description := None))
    ensures id != a.id ==> !a.Same(a.(id := id))
  {
  }

  // ---------------------------------------------------------------------
  // The discovery resource's coding keys

  /** The stored properties of `TaxiiDiscovery` that take part in coding. */
  datatype DiscoveryField = Title | DefaultApi | Description | Contact | ApiRoots

  /** The JSON key of each field: the property name, except that
      `default_api` is written `default`. */
  function DiscoveryKey(f: DiscoveryField): (k: string)
    ensures k == "default" <==> f == DefaultApi
  {
    match f
    case Title => "title"
    case DefaultApi => "default"
    case Description => "description"
    case Contact => "contact"
    case ApiRoots => "api_roots"
  }

  /** The field a JSON key fills, if any. */
  function DiscoveryFieldOf(k: string): (r: Option<DiscoveryField>)
    ensures r.Some? ==> DiscoveryKey(r.value) == k
  {
    if k == "title" then Some(Title)
    else if k == "default" then Some(DefaultApi)
    else if k == "description" then Some(Description)
    else if k == "contact" then Some(Contact)
    else if k == "api_roots" then Some(ApiRoots)
    else None
  }

  /** The keys and the fields are in one-to-one correspondence; the key
      `default_api` fills nothing. */
  lemma DiscoveryKeysBijective(f: DiscoveryField, g: DiscoveryField)
    ensures DiscoveryFieldOf(DiscoveryKey(f)) == Some(f)
    ensures DiscoveryKey(f) == DiscoveryKey(g) ==> f == g
    ensures DiscoveryFieldOf("default_api") == None
  {
    var k := "default_api";
    assert k != "default" && k != "title" && k != "description" && k != "contact" && k != "api_roots" by {
      assert |k| == 11 && k[0] == 'd' && k[1] == 'e' && k[7] == '_';
    }
  }

  const DiscoveryKeys: set<string> := {"title", "default", "description", "contact", "api_roots"}

  /** An optional string property: absent or null is nil, a string is
      kept, anything else is a decoding error. */
  function OptionalString(o: map<string, Json>, k: string): Decoding<Option<string>> {
    if k !in o || o[k].JNull? then Decoded(None)
    else if o[k].JString? then Decoded(Some(o[k].s))
    else Rejected
  }

  /** The strings of a JSON array, when every item is a string. */
  function Strings(items: seq<Json>): (r: Option<seq<string>>)
    ensures r.Some? <==> forall i :: 0 <= i < |items| ==> items[i].JString?
    ensures r.Some? ==> |r.value| == |items| && forall i :: 0 <= i < |items| ==> items[i] == JString(r.value[i])
    decreases |items|
  {
    if |items| == 0 then Some([])
    else if !items[0].JString? then None
    else
      match Strings(items[1..])
      case None => None
      case Some(rest) => Some([items[0].s] + rest)
  }

  function OptionalStrings(o: map<string, Json>, k: string): Decoding<Option<seq<string>>> {
    if k !in o || o[k].JNull? then Decoded(None)
    else if o[k].JArray? && Strings(o[k].items).Some? then Decoded(Some(Strings(o[k].items).value))
    else Rejected
  }

  /** The synthesized `TaxiiDiscovery.init(from:)`: `title` is required, the
      other keys are optional, and the id is `uuid`, the fresh UUID string
      of the new instance. */
  function DecodeDiscovery(uuid: string, j: Json): (r: Decoding<TaxiiDiscovery>)
    ensures r.Decoded? ==> r.value.id == uuid
    ensures r.Decoded? ==> j.JObject? && "title" in j.fields && j.fields["title"] == JString(r.value.title)
    ensures !r.Trapped?
  {
    if !j.JObject? then Rejected
    else
      var o := j.fields;
      var description, contact, defaultApi, apiRoots :=
        OptionalString(o, "description"), OptionalString(o, "contact"),
        OptionalString(o, "default"), OptionalStrings(o, "api_roots");
      if "title" !in o || !o["title"].JString? then Rejected
      else if !description.Decoded? || !contact.Decoded? || !defaultApi.Decoded? || !apiRoots.Decoded? then Rejected
      else Decoded(TaxiiDiscovery(uuid, o["title"].s, description.value, contact.value,
                                  defaultApi.value, apiRoots.value))
  }

  /** A JSON object with `v` under `k` when `v` is present. */
  function PutString(o: map<string, Json>, k: string, v: Option<string>): map<string, Json> {
    if v.Some? then o[k := JString(v.value)] else o
  }

  function PutStrings(o: map<string, Json>, k: string, v: Option<seq<string>>): map<string, Json> {
    if v.Some? then o[k := JArray(seq(|v.value|, i requires 0 <= i < |v.value| => JString(v.value[i])))] else o
  }

  /** The synthesized `TaxiiDiscovery.encode(to:)`: nil properties are left
      out and the id is not written. */
  function EncodeDiscovery(d: TaxiiDiscovery): (j: Json)
    ensures j.JObject? && j.fields.Keys <= DiscoveryKeys
    ensures "title" in j.fields
  {
    var o := map["title" := JString(d.title)];
    var o := PutString(o, "description", d.description);
    var o := PutString(o, "contact", d.contact);
    var o := PutString(o, "default", d.defaultApi);
    JObject(PutStrings(o, "api_roots", d.apiRoots))
  }

  /** An array written from strings reads back as those strings. */
  lemma StringsOfArray(xs: seq<string>)
    ensures Strings(seq(|xs|, i requires 0 <= i < |xs| => JString(xs[i]))) == Some(xs)
  {
    var items := seq(|xs|, i requires 0 <= i < |xs| => JString(xs[i]));
    assert forall i :: 0 <= i < |items| ==> items[i].JString?;
    assert Strings(items).value == xs;
  }

  /** Each property the encoder writes is read back by its decoder. */
  lemma EncodedDiscoveryFields(d: TaxiiDiscovery)
    ensures var o := EncodeDiscovery(d).fields;
      && "title" in o && o["title"] == JString(d.title)
      && OptionalString(o, "description") == Decoded(d.description)
      && OptionalString(o, "contact") == Decoded(d.contact)
      && OptionalString(o, "default") == Decoded(d.defaultApi)
      && OptionalStrings(o, "api_roots") == Decoded(d.apiRoots)
  {
    var o := EncodeDiscovery(d).fields;
    assert "title" in o && o["title"] == JString(d.title) by {
      DiscoveryKeysDistinct();
    }
    assert OptionalString(o, "description") == Decoded(d.description) by {
      DiscoveryKeysDistinct();
    }
    assert OptionalString(o, "contact") == Decoded(d.contact) by {
      DiscoveryKeysDistinct();
    }
    assert OptionalString(o, "default") == Decoded(d.defaultApi) by {
      DiscoveryKeysDistinct();
    }
    assert OptionalStrings(o, "api_roots") == Decoded(d.apiRoots) by {
      if d.apiRoots.Some? {
        StringsOfArray(d.apiRoots.value);
      }
    }
  }

  /** The five coding keys are pairwise different. */
  lemma DiscoveryKeysDistinct()
    ensures "title" != "description" && "title" != "contact" && "title" != "default" && "title" != "api_roots"
    ensures "description" != "contact" && "description" != "default" && "description" != "api_roots"
    ensures "contact" != "default" && "contact" != "api_roots" && "default" != "api_roots"
  {
    assert "title"[0] == 't' && "description"[0] == 'd' && "contact"[0] == 'c';
    assert "default"[0] == 'd' && "api_roots"[0] == 'a';
    assert |"description"| == 11 && |"default"| == 7;
  }

  /** Decoding an encoded discovery resource gives back every property, but
      under the new instance's id: the copy equals the original only if the
      uuid id happens to be the original's. */
  lemma DiscoveryRoundTrip(d: TaxiiDiscovery, uuid: string)
    ensures DecodeDiscovery(uuid, EncodeDiscovery(d)) == Decoded(d.(id := uuid))
    ensures DecodeDiscovery(uuid, EncodeDiscovery(d)).value.Same(d) <==> uuid == d.id
  {
    EncodedDiscoveryFields(d);
  }

  /** Keys outside the coding keys are ignored, `default_api` among them. */
  lemma DiscoveryIgnoresOtherKeys(uuid: string, o: map<string, Json>, k: string, v: Json)
    requires k !in DiscoveryKeys
    ensures DecodeDiscovery(uuid, JObject(o[k := v])) == DecodeDiscovery(uuid, JObject(o))
  {
  }

  /** `TaxiiDiscovery.init()`: empty title and texts and an empty list of
      API roots, under the fresh id `uuid`. */
  function EmptyDiscovery(uuid: string): (d: TaxiiDiscovery)
    ensures d.id == uuid
    ensures d.title == "" && d.description == Some("") && d.contact == Some("") && d.defaultApi == Some("")
    ensures d.apiRoots == Some([])
  {
    TaxiiDiscovery(uuid, "", Some(""), Some(""), Some(""), Some([]))
  }

  /** The empty resource encodes with every key present and survives a round
      trip except for its id. */
  lemma EmptyDiscoveryEncoding(uuid: string, uuid2: string)
    ensures EncodeDiscovery(EmptyDiscovery(uuid)).fields.Keys == DiscoveryKeys
    ensures DecodeDiscovery(uuid2, EncodeDiscovery(EmptyDiscovery(uuid))) == Decoded(EmptyDiscovery(uuid2))
  {
    DiscoveryRoundTrip(EmptyDiscovery(uuid), uuid2);
  }

  // ---------------------------------------------------------------------
  // URL filter parameters

  /** `TaxiiFilters`: every filter optional. */
  datatype Filters = Filters(
    addedAfter: Option<string>,
    limit: Option<int>,
    next: Option<string>,
    matchId: Option<seq<string>>,
    matchType: Option<seq<string>>,
    matchVersion: Option<seq<string>>,
    matchSpecVersion: Option<seq<string>>)

  /** `TaxiiFilters()`: no filter set. */
  const NoFilters := Filters(None, None, None, None, None, None, None)

  const AddedAfterKey := "added_after"
  const LimitKey := "limit"
  const NextKey := "next"
  const MatchIdKey := "match[id]"
  const MatchTypeKey := "match[type]"
  const MatchVersionKey := "match[version]"
  const MatchSpecVersionKey := "match[spec_version]"

  const ParamKeys: set<string> :=
    {AddedAfterKey, LimitKey, NextKey, MatchIdKey, MatchTypeKey, MatchVersionKey, MatchSpecVersionKey}

  /** The seven parameter names differ: by their first character, and the
      four `match[...]` names by the character after the bracket. */
  lemma ParamKeysDistinct()
    ensures AddedAfterKey != LimitKey && AddedAfterKey != NextKey && LimitKey != NextKey
    ensures MatchIdKey != AddedAfterKey && MatchIdKey != LimitKey && MatchIdKey != NextKey
    ensures MatchTypeKey != AddedAfterKey && MatchTypeKey != LimitKey && MatchTypeKey != NextKey
    ensures MatchVersionKey != AddedAfterKey && MatchVersionKey != LimitKey && MatchVersionKey != NextKey
    ensures MatchSpecVersionKey != AddedAfterKey && MatchSpecVersionKey != LimitKey && MatchSpecVersionKey != NextKey
    ensures MatchIdKey != MatchTypeKey && MatchIdKey != MatchVersionKey && MatchIdKey != MatchSpecVersionKey
    ensures MatchTypeKey != MatchVersionKey && MatchTypeKey != MatchSpecVersionKey
    ensures MatchVersionKey != MatchSpecVersionKey
  {
    var a, l, n := AddedAfterKey, LimitKey, NextKey;
    var i, t, v, sv := MatchIdKey, MatchTypeKey, MatchVersionKey, MatchSpecVersionKey;
    assert a[0] == 'a' && l[0] == 'l' && n[0] == 'n';
    assert i[0] == 'm' && t[0] == 'm' && v[0] == 'm' && sv[0] == 'm';
    assert i[6] == 'i' && t[6] == 't' && v[6] == 'v' && sv[6] == 's';
  }

  /** A list filter as a parameter value: the items joined by commas. */
  function ListParam(xs: Option<seq<string>>): (r: Option<string>)
    ensures r.Some? <==> xs.Some?
  {
    if xs.Some? then Some(Join(xs.value, ',')) else None
  }

  /** The value `asParameters` gives the parameter named `k`, if any: the
      limit in decimal, each list joined with commas, the other filters as
      they are. */
  function ParamValue(f: Filters, k: string): Option<string> {
    if k == AddedAfterKey then f.addedAfter
    else if k == LimitKey then (if f.limit.Some? then Some(Decimal.FromInt(f.limit.value)) else None)
    else if k == NextKey then f.next
    else if k == MatchIdKey then ListParam(f.matchId)
    else if k == MatchTypeKey then ListParam(f.matchType)
    else if k == MatchVersionKey then ListParam(f.matchVersion)
    else if k == MatchSpecVersionKey then ListParam(f.matchSpecVersion)
    else None
  }

  /** `asParameters`: a key for exactly the filters that are set, taken from
      the seven TAXII filter names; the limit in decimal and each list
      joined with commas. The source fills the dictionary one filter at a
      time; as the seven names differ (ParamKeysDistinct), the order of
      those assignments does not matter. */
  function AsParameters(f: Filters): (p: map<string, string>)
    ensures p.Keys <= ParamKeys
    ensures AddedAfterKey in p <==> f.addedAfter.Some?
    ensures LimitKey in p <==> f.limit.Some?
    ensures NextKey in p <==> f.next.Some?
    ensures MatchIdKey in p <==> f.matchId.Some?
    ensures MatchTypeKey in p <==> f.matchType.Some?
    ensures MatchVersionKey in p <==> f.matchVersion.Some?
    ensures MatchSpecVersionKey in p <==> f.matchSpecVersion.Some?
    ensures f.addedAfter.Some? ==> p[AddedAfterKey] == f.addedAfter.value
    ensures f.next.Some? ==> p[NextKey] == f.next.value
    ensures f.limit.Some? ==> p[LimitKey] == Decimal.FromInt(f.limit.value)
    ensures f.limit.Some? ==> Decimal.IsNumeral(p[LimitKey]) && Decimal.ParseInt(p[LimitKey]) == f.limit
    ensures f.matchId.Some? ==> p[MatchIdKey] == Join(f.matchId.value, ',')
    ensures f.matchType.Some? ==> p[MatchTypeKey] == Join(f.matchType.value, ',')
    ensures f.matchVersion.Some? ==> p[MatchVersionKey] == Join(f.matchVersion.value, ',')
    ensures f.matchSpecVersion.Some? ==> p[MatchSpecVersionKey] == Join(f.matchSpecVersion.value, ',')
  {
    ParamKeysDistinct();
    Decimal.ParseIntFromInt(f.limit.GetOr(0));
    map k | k in ParamKeys && ParamValue(f, k).Some? :: ParamValue(f, k).value
  }

  /** The reading of a parameter map back into filters: the partner of
      AsParameters. */
  function FromParameters(p: map<string, string>): Filters {
    Filters(
      if AddedAfterKey in p then Some(p[AddedAfterKey]) else None,
      if LimitKey in p then Decimal.ParseInt(p[LimitKey]) else None,
      if NextKey in p then Some(p[NextKey]) else None,
      if MatchIdKey in p then Some(Split(p[MatchIdKey], ',')) else None,
      if MatchTypeKey in p then Some(Split(p[MatchTypeKey], ',')) else None,
      if MatchVersionKey in p then Some(Split(p[MatchVersionKey], ',')) else None,
      if MatchSpecVersionKey in p then Some(Split(p[MatchSpecVersionKey], ',')) else None)
  }

  /** A list filter that survives the comma join: absent, or non-empty with
      no comma inside an item. */
  predicate Recoverable(xs: Option<seq<string>>) {
    xs.None? || (|xs.value| > 0 && forall i :: 0 <= i < |xs.value| ==> ',' !in xs.value[i])
  }

  /** When every list filter is recoverable, the parameters carry the
      filters. */
  lemma ParametersRoundTrip(f: Filters)
    requires Recoverable(f.matchId) && Recoverable(f.matchType)
    requires Recoverable(f.matchVersion) && Recoverable(f.matchSpecVersion)
    ensures FromParameters(AsParameters(f)) == f
  {
    var p := AsParameters(f);
    if f.matchId.Some? { SplitJoin(f.matchId.value, ','); }
    if f.matchType.Some? { SplitJoin(f.matchType.value, ','); }
    if f.matchVersion.Some? { SplitJoin(f.matchVersion.value, ','); }
    if f.matchSpecVersion.Some? { SplitJoin(f.matchSpecVersion.value, ','); }
  }

  /** A present but empty list still yields its key, with the empty value,
      which reads back as one empty item; no filter yields no parameter. */
  lemma EmptyListParameter(f: Filters)
    requires f.matchId == Some([])
    ensures AsParameters(f)[MatchIdKey] == ""
    ensures FromParameters(AsParameters(f)).matchId == Some([""])
    ensures AsParameters(NoFilters) == map[]
  {
    ParamKeysDistinct();
    assert ParamValue(f, MatchIdKey) == Some("");
    NoFiltersNoParameters();
  }

  lemma NoFiltersNoParameters()
    ensures AsParameters(NoFilters) == map[]
  {
    assert AsParameters(NoFilters).Keys == {};
  }
}

=== FILE: text.dfy ===
/** String helpers the client relies on: Foundation's whitespace trimming,
    ASCII lower-casing, joining and splitting on a separator character, the
    `+` to `%2B` rewrite of an encoded query, and the lexicographic order
    Swift's `<` puts on identifiers. Strings are sequences of Unicode scalar
    values; grapheme clustering is not modelled. */
module Text {

  /** Membership in Foundation's `whitespacesAndNewlines` set: the Unicode
      general category Z, the controls U+0009..U+000D, and U+0085. */
  predicate IsSpace(c: char) {
    || c == ' '
    || ('\t' <= c <= '\r')
    || c == '\U{0085}' || c == '\U{00A0}' || c == '\U{1680}'
    || ('\U{2000}' <= c <= '\U{200A}')
    || c == '\U{2028}' || c == '\U{2029}' || c == '\U{202F}'
    || c == '\U{205F}' || c == '\U{3000}'
  }

  /** Neither end of `s` is whitespace. */
  predicate IsTrimmed(s: string) {
    |s| == 0 || (!IsSpace(s[0]) && !IsSpace(s[|s| - 1]))
  }

  /** Swift's `s.last == "/"`: false on the empty string. */
  predicate EndsWithSlash(s: string) {
    |s| > 0 && s[|s| - 1] == '/'
  }

  /** `p` is a prefix of `s`. */
  predicate StartsWith(s: string, p: string) {
    |p| <= |s| && s[..|p|] == p
  }

  /** Extending a string keeps its prefixes. */
  lemma StartsWithAppend(s: string, p: string, t: string)
    requires StartsWith(s, p)
    ensures StartsWith(s + t, p)
  {
    assert (s + t)[..|p|] == s[..|p|];
  }

  /** Every character of `s` is whitespace. */
  predicate AllSpace(s: string) {
    forall i :: 0 <= i < |s| ==> IsSpace(s[i])
  }

  /** `s` with its leading whitespace removed. */
  function TrimStart(s: string): (r: string)
    ensures |r| <= |s| && r == s[|s| - |r|..]
    ensures |r| > 0 ==> !IsSpace(r[0])
    ensures AllSpace(s[..|s| - |r|])
  {
    if |s| > 0 && IsSpace(s[0]) then TrimStart(s[1..]) else s
  }

  /** `s` with its trailing whitespace removed. */
  function TrimEnd(s: string): (r: string)
    ensures |r| <= |s| && r == s[..|r|]
    ensures |r| > 0 ==> !IsSpace(r[|r| - 1])
    ensures AllSpace(s[|r|..])
  {
    if |s| > 0 && IsSpace(s[|s| - 1]) then TrimEnd(s[..|s| - 1]) else s
  }

  /** `String.trim()` (TaxiiConnect.swift): both ends stripped of whitespace;
      a string that is already trimmed is returned unchanged. */
  function Trim(s: string): (r: string)
    ensures IsTrimmed(r)
    ensures |r| <= |s|
    ensures IsTrimmed(s) ==> r == s
  {
    TrimEnd(TrimStart(s))
  }

  /** Leading whitespace in front of a string that starts with something
      else is exactly what TrimStart removes. */
  lemma {:induction false} TrimStartSpaces(ws: string, t: string)
    requires AllSpace(ws) && (|t| == 0 || !IsSpace(t[0]))
    ensures TrimStart(ws + t) == t
    decreases |ws|
  {
    if |ws| > 0 {
      assert (ws + t)[1..] == ws[1..] + t;
      TrimStartSpaces(ws[1..], t);
    } else {
      assert ws + t == t;
    }
  }

  /** Trailing whitespace behind a string that ends in something else is
      exactly what TrimEnd removes. */
  lemma {:induction false} TrimEndSpaces(t: string, ws: string)
    requires AllSpace(ws) && (|t| == 0 || !IsSpace(t[|t| - 1]))
    ensures TrimEnd(t + ws) == t
    decreases |ws|
  {
    if |ws| > 0 {
      assert (t + ws)[..|t + ws| - 1] == t + ws[..|ws| - 1];
      TrimEndSpaces(t, ws[..|ws| - 1]);
    } else {
      assert t + ws == t;
    }
  }

  /** Trimming removes exactly the whitespace around a non-empty trimmed
      string. */
  lemma TrimSurrounded(ws1: string, t: string, ws2: string)
    requires AllSpace(ws1) && AllSpace(ws2) && IsTrimmed(t) && |t| > 0
    ensures Trim(ws1 + t + ws2) == t
  {
    assert ws1 + t + ws2 == ws1 + (t + ws2);
    TrimStartSpaces(ws1, t + ws2);
    TrimEndSpaces(t, ws2);
  }

  lemma TrimIdempotent(s: string)
    ensures Trim(Trim(s)) == Trim(s)
  {
  }

  /** Appending a slash to a trimmed string keeps it trimmed. */
  lemma TrimmedWithSlash(t: string)
    requires IsTrimmed(t)
    ensures IsTrimmed(t + "/") && Trim(t + "/") == t + "/"
  {
  }

  // ---------------------------------------------------------------------
  // ASCII lower-casing

  predicate IsUpper(c: char) {
    'A' <= c <= 'Z'
  }

  function LowerChar(c: char): (r: char)
    ensures !IsUpper(r)
    ensures IsUpper(c) ==> r as int == c as int + 32
    ensures !IsUpper(c) ==> r == c
  {
    if IsUpper(c) then (c as int + 32) as char else c
  }

  /** `String.lowercased()` restricted to ASCII letters: the result has the
      same length, no upper-case letter, and agrees with `s` wherever `s` has
      no upper-case letter. */
  function Lower(s: string): (r: string)
    ensures |r| == |s|
    ensures forall i :: 0 <= i < |r| ==> !IsUpper(r[i])
    ensures forall i :: 0 <= i < |s| && !IsUpper(s[i]) ==> r[i] == s[i]
    ensures forall i :: 0 <= i < |s| && IsUpper(s[i]) ==> r[i] as int == s[i] as int + 32
  {
    seq(|s|, i requires 0 <= i < |s| => LowerChar(s[i]))
  }

  /** Lower-casing leaves a string without upper-case letters alone. */
  lemma LowerOfLowercase(s: string)
    requires forall i :: 0 <= i < |s| ==> !IsUpper(s[i])
    ensures Lower(s) == s
  {
  }

  lemma LowerIdempotent(s: string)
    ensures Lower(Lower(s)) == Lower(s)
  {
  }

  // ---------------------------------------------------------------------
  // Joining and splitting

  /** Swift's `joined(separator:)` with a one-character separator. */
  function Join(xs: seq<string>, sep: char): (r: string)
    ensures |xs| == 0 ==> r == ""
    ensures |xs| == 1 ==> r == xs[0]
    decreases |xs|
  {
    if |xs| == 0 then ""
    else if |xs| == 1 then xs[0]
    else xs[0] + [sep] + Join(xs[1..], sep)
  }

  /** A join of several items starts with the first item and then the
      separator, and it is as long as the items together plus one
      separator between each two. */
  lemma {:induction false} JoinLayout(xs: seq<string>, sep: char)
    ensures |xs| > 1 ==> |Join(xs, sep)| > |xs[0]| && Join(xs, sep)[..|xs[0]|] == xs[0] && Join(xs, sep)[|xs[0]|] == sep
    ensures |xs| > 0 ==> |Join(xs, sep)| == TotalLength(xs) + |xs| - 1
    decreases |xs|
  {
    if |xs| > 1 {
      JoinLayout(xs[1..], sep);
      var r := Join(xs, sep);
      assert r == xs[0] + [sep] + Join(xs[1..], sep);
      assert r[..|xs[0]|] == xs[0];
    }
  }

  /** Joining two non-empty lists is joining each and putting one separator
      between the two; with the one- and no-item cases this fixes `Join` on
      every list. */
  lemma {:induction false} JoinAppend(xs: seq<string>, ys: seq<string>, sep: char)
    requires |xs| > 0 && |ys| > 0
    ensures Join(xs + ys, sep) == Join(xs, sep) + [sep] + Join(ys, sep)
    decreases |xs|
  {
    if |xs| == 1 {
      assert (xs + ys)[1..] == ys;
    } else {
      assert (xs + ys)[1..] == xs[1..] + ys;
      JoinAppend(xs[1..], ys, sep);
    }
  }

  /** The total length of the items of a list. */
  function TotalLength(xs: seq<string>): nat
    decreases |xs|
  {
    if |xs| == 0 then 0 else |xs[0]| + TotalLength(xs[1..])
  }

  /** The pieces of `s` between occurrences of `sep`; never empty, and no
      piece contains `sep`. */
  function Split(s: string, sep: char): (r: seq<string>)
    ensures |r| > 0
    ensures forall i :: 0 <= i < |r| ==> sep !in r[i]
    decreases |s|
  {
    if |s| == 0 then [""]
    else
      var rest := Split(s[1..], sep);
      if s[0] == sep then [""] + rest
      else [[s[0]] + rest[0]] + rest[1..]
  }

  /** Splitting and re-joining gives back any string. */
  lemma {:induction false} JoinSplit(s: string, sep: char)
    ensures Join(Split(s, sep), sep) == s
    decreases |s|
  {
    if |s| > 0 {
      var rest := Split(s[1..], sep);
      JoinSplit(s[1..], sep);
      if s[0] == sep {
        assert Split(s, sep) == [""] + rest;
        assert ([""] + rest)[1..] == rest;
        assert s == [sep] + s[1..];
      } else {
        var r := Split(s, sep);
        assert r == [[s[0]] + rest[0]] + rest[1..];
        if |rest| == 1 {
          assert s == [s[0]] + s[1..];
        } else {
          assert r[1..] == rest[1..];
          assert Join(rest, sep) == rest[0] + [sep] + Join(rest[1..], sep);
          assert s == [s[0]] + s[1..];
        }
      }
    }
  }

  /** A piece free of the separator, followed by the separator, splits off
      as one piece. */
  lemma {:induction false} SplitAfterPiece(x: string, sep: char, t: string)
    requires sep !in x
    ensures Split(x + [sep] + t, sep) == [x] + Split(t, sep)
    decreases |x|
  {
    if |x| == 0 {
      assert x + [sep] + t == [sep] + t;
      assert ([sep] + t)[1..] == t;
    } else {
      var s := x + [sep] + t;
      assert s[0] == x[0] && s[1..] == x[1..] + [sep] + t;
      SplitAfterPiece(x[1..], sep, t);
      assert [s[0]] + x[1..] == x;
    }
  }

  /** A string free of the separator splits into itself. */
  lemma {:induction false} SplitWhole(x: string, sep: char)
    requires sep !in x
    ensures Split(x, sep) == [x]
    decreases |x|
  {
    if |x| > 0 {
      SplitWhole(x[1..], sep);
      assert [x[0]] + x[1..] == x;
    }
  }

  /** Joining a non-empty list of separator-free pieces and splitting again
      recovers the list. */
  lemma {:induction false} SplitJoin(xs: seq<string>, sep: char)
    requires |xs| > 0
    requires forall i :: 0 <= i < |xs| ==> sep !in xs[i]
    ensures Split(Join(xs, sep), sep) == xs
    decreases |xs|
  {
    if |xs| == 1 {
      SplitWhole(xs[0], sep);
    } else {
      SplitJoin(xs[1..], sep);
      SplitAfterPiece(xs[0], sep, Join(xs[1..], sep));
      assert [xs[0]] + xs[1..] == xs;
    }
  }

  // ---------------------------------------------------------------------
  // The `+` rewrite of a percent-encoded query

  /** Every `+` of `s` replaced by `%2B`, every other character kept. */
  function EscapePlus(s: string): (r: string)
    ensures '+' !in r
    ensures '+' !in s ==> r == s
    ensures |r| >= |s|
    decreases |s|
  {
    if |s| == 0 then ""
    else (if s[0] == '+' then "%2B" else [s[0]]) + EscapePlus(s[1..])
  }

  /** Every `%2B` of `s` turned back into `+`: the partner of EscapePlus. */
  function UnescapePlus(s: string): string
    decreases |s|
  {
    if |s| >= 3 && s[..3] == "%2B" then "+" + UnescapePlus(s[3..])
    else if |s| == 0 then ""
    else [s[0]] + UnescapePlus(s[1..])
  }

  /** The rewrite is idempotent. */
  lemma EscapePlusIdempotent(s: string)
    ensures EscapePlus(EscapePlus(s)) == EscapePlus(s)
  {
  }

  /** `s` has no `%2B` in it, so that every `%2B` after the rewrite comes
      from a `+`. */
  predicate NoEscapedPlus(s: string)
    decreases |s|
  {
    |s| < 3 || (s[..3] != "%2B" && NoEscapedPlus(s[1..]))
  }

  /** The rewrite loses nothing on a string without `%2B`, which is the case
      of a percent-encoded query in which `+` was never escaped. */
  lemma {:induction false} EscapePlusInvertible(s: string)
    requires NoEscapedPlus(s)
    ensures UnescapePlus(EscapePlus(s)) == s
    decreases |s|
  {
    if |s| > 0 {
      assert NoEscapedPlus(s[1..]);
      EscapePlusInvertible(s[1..]);
      var rest := EscapePlus(s[1..]);
      if s[0] == '+' {
        assert UnescapePlus(EscapePlus(s)) == "+" + UnescapePlus(rest) by {
          var e := "%2B" + rest;
          assert EscapePlus(s) == e;
          assert e[..3] == "%2B" && e[3..] == rest;
        }
      } else {
        assert UnescapePlus(EscapePlus(s)) == [s[0]] + UnescapePlus(rest) by {
          var e := [s[0]] + rest;
          assert EscapePlus(s) == e;
          if |e| >= 3 && e[..3] == "%2B" {
            assert false;
          }
          assert e[1..] == rest;
        }
      }
      assert s == [s[0]] + s[1..];
    }
  }

  // ---------------------------------------------------------------------
  // Lexicographic order on strings

  /** Swift's `<` on strings, as lexicographic order of scalar values. */
  predicate Less(a: string, b: string)
    decreases |a|
  {
    if |a| == 0 then |b| > 0
    else if |b| == 0 then false
    else if a[0] != b[0] then a[0] < b[0]
    else Less(a[1..], b[1..])
  }

  lemma {:induction false} LessIrreflexive(a: string)
    ensures !Less(a, a)
    decreases |a|
  {
    if |a| > 0 {
      LessIrreflexive(a[1..]);
    }
  }

  lemma {:induction false} LessTransitive(a: string, b: string, c: string)
    requires Less(a, b) && Less(b, c)
    ensures Less(a, c)
    decreases |a|
  {
    if |a| > 0 && a[0] == b[0] && b[0] == c[0] {
      LessTransitive(a[1..], b[1..], c[1..]);
    }
  }

  lemma {:induction false} LessTotal(a: string, b: string)
    ensures a == b || Less(a, b) || Less(b, a)
    decreases |a|
  {
    if |a| > 0 && |b| > 0 && a[0] == b[0] {
      LessTotal(a[1..], b[1..]);
      if a[1..] == b[1..] {
        assert a == [a[0]] + a[1..] && b == [b[0]] + b[1..];
      }
    }
  }
}

=== FILE: utf8.dfy ===
/** UTF-8 (RFC 3629), the encoding `String.data(using: .utf8)` applies to the
    credentials before they are base 64 encoded. The decoder is the strict
    one of section 3 of RFC 3629: no overlong forms, no surrogates, nothing
    above U+10FFFF. */
module Utf8 {
  import opened Wrappers

  /** The bytes of one scalar value: one to four of them, by magnitude. */
  function EncodeChar(c: char): (r: seq<Byte>)
    ensures 1 <= |r| <= 4
    ensures |r| == 1 <==> c as int < 0x80
  {
    var n := c as int;
    if n < 0x80 then [n]
    else if n < 0x800 then [0xC0 + n / 64, 0x80 + n % 64]
    else if n < 0x10000 then [0xE0 + n / 4096, 0x80 + (n / 64) % 64, 0x80 + n % 64]
    else [0xF0 + n / 262144, 0x80 + (n / 4096) % 64, 0x80 + (n / 64) % 64, 0x80 + n % 64]
  }

  function Encode(s: string): (r: seq<Byte>)
    ensures |r| >= |s|
    ensures |s| > 0 ==> |r| > 0
    decreases |s|
  {
    if |s| == 0 then [] else EncodeChar(s[0]) + Encode(s[1..])
  }

  predicate IsContinuation(b: Byte) {
    0x80 <= b < 0xC0
  }

  /** A scalar value as a `char`, when it is one. */
  function ToChar(n: int): Option<char> {
    if 0 <= n < 0xD800 || 0xE000 <= n < 0x11_0000 then Some(n as char) else None
  }

  /** The first character of `b` and the number of bytes it takes; `None`
      when `b` does not start with a well-formed sequence. */
  function DecodeFirst(b: seq<Byte>): (r: Option<(char, nat)>)
    ensures r.Some? ==> 1 <= r.value.1 <= |b|
  {
    if |b| == 0 then None
    else if b[0] < 0x80 then Some((b[0] as char, 1))
    else if 0xC2 <= b[0] < 0xE0 && |b| >= 2 && IsContinuation(b[1]) then
      var c := ToChar((b[0] as int - 0xC0) * 64 + (b[1] as int - 0x80));
      if c.Some? then Some((c.value, 2)) else None
    else if 0xE0 <= b[0] < 0xF0 && |b| >= 3 && IsContinuation(b[1]) && IsContinuation(b[2]) then
      var n := (b[0] as int - 0xE0) * 4096 + (b[1] as int - 0x80) * 64 + (b[2] as int - 0x80);
      var c := ToChar(n);
      if n >= 0x800 && c.Some? then Some((c.value, 3)) else None
    else if 0xF0 <= b[0] < 0xF5 && |b| >= 4
         && IsContinuation(b[1]) && IsContinuation(b[2]) && IsContinuation(b[3]) then
      var n := (b[0] as int - 0xF0) * 262144 + (b[1] as int - 0x80) * 4096 + (b[2] as int - 0x80) * 64 + (b[3] as int - 0x80);
      var c := ToChar(n);
      if n >= 0x10000 && c.Some? then Some((c.value, 4)) else None
    else None
  }

  function Decode(b: seq<Byte>): Option<string>
    decreases |b|
  {
    if |b| == 0 then Some("")
    else
      match DecodeFirst(b)
      case None => None
      case Some((c, k)) =>
        match Decode(b[k..])
        case None => None
        case Some(rest) => Some([c] + rest)
  }

  /** Positional notation in base 64, both ways, for two to four digits. */
  lemma Radix64Digits2(n: int)
    requires 0 <= n < 0x800
    ensures n == (n / 64) * 64 + n % 64 && n / 64 < 32
  {
  }

  lemma Radix64Digits3(n: int)
    requires 0 <= n < 0x10000
    ensures n == (n / 4096) * 4096 + ((n / 64) % 64) * 64 + n % 64 && n / 4096 < 16
  {
  }

  lemma Radix64Digits4(n: int)
    requires 0 <= n < 0x11_0000
    ensures n == (n / 262144) * 262144 + ((n / 4096) % 64) * 4096 + ((n / 64) % 64) * 64 + n % 64
    ensures n / 262144 < 5
  {
    var q1 := n / 64;
    var q2 := q1 / 64;
    DivideTwice(n);
    DivideTwice(q1);
    assert n / 4096 == q2;
    assert n / 262144 == q2 / 64 by {
      DivideTwice(n / 64);
      DivideThrice(n);
    }
  }

  /** Dividing by 64 twice is dividing by 4096. */
  lemma DivideTwice(n: int)
    requires 0 <= n
    ensures n / 4096 == (n / 64) / 64
    ensures n == ((n / 64) / 64) * 4096 + ((n / 64) % 64) * 64 + n % 64
  {
    var q, r1, r0 := (n / 64) / 64, (n / 64) % 64, n % 64;
    assert n / 64 == q * 64 + r1;
    assert n == q * 4096 + (r1 * 64 + r0);
  }

  /** Dividing by 64 three times is dividing by 262144. */
  lemma DivideThrice(n: int)
    requires 0 <= n
    ensures n / 262144 == ((n / 64) / 64) / 64
  {
    var q := ((n / 64) / 64) / 64;
    DivideTwice(n);
    assert n / 4096 == q * 64 + (n / 4096) % 64;
    assert n == q * 262144 + ((n / 4096) % 64) * 4096 + (n % 4096);
  }

  lemma FromDigits2(a: int, b: int)
    requires 0 <= a && 0 <= b < 64
    ensures (a * 64 + b) / 64 == a && (a * 64 + b) % 64 == b
  {
  }

  lemma FromDigits3(a: int, b: int, c: int)
    requires 0 <= a && 0 <= b < 64 && 0 <= c < 64
    ensures var n := a * 4096 + b * 64 + c; n / 4096 == a && (n / 64) % 64 == b && n % 64 == c
  {
    var n := a * 4096 + b * 64 + c;
    FromDigits2(a * 64 + b, c);
    assert n == (a * 64 + b) * 64 + c;
    FromDigits2(a, b);
  }

  lemma FromDigits4(a: int, b: int, c: int, d: int)
    requires 0 <= a && 0 <= b < 64 && 0 <= c < 64 && 0 <= d < 64
    ensures var n := a * 262144 + b * 4096 + c * 64 + d;
      n / 262144 == a && (n / 4096) % 64 == b && (n / 64) % 64 == c && n % 64 == d
  {
    var n := a * 262144 + b * 4096 + c * 64 + d;
    FromDigits3(a * 64 + b, c, d);
    assert n == (a * 64 + b) * 4096 + c * 64 + d;
    FromDigits2(a, b);
  }

  /** The encoding of one character is recognised as that character, in
      front of any bytes. */
  lemma DecodeFirstEncodeChar(c: char, rest: seq<Byte>)
    ensures DecodeFirst(EncodeChar(c) + rest) == Some((c, |EncodeChar(c)|))
  {
    var n := c as int;
    if n < 0x80 {
    } else if n < 0x800 {
      DecodeTwoBytes(c, rest);
    } else if n < 0x10000 {
      DecodeThreeBytes(c, rest);
    } else {
      DecodeFourBytes(c, rest);
    }
  }

  lemma DecodeTwoBytes(c: char, rest: seq<Byte>)
    requires 0x80 <= c as int < 0x800
    ensures DecodeFirst(EncodeChar(c) + rest) == Some((c, 2))
  {
    var n := c as int;
    var b := EncodeChar(c) + rest;
    Radix64Digits2(n);
    assert b[0] as int - 0xC0 == n / 64 && b[1] as int - 0x80 == n % 64;
  }

  lemma DecodeThreeBytes(c: char, rest: seq<Byte>)
    requires 0x800 <= c as int < 0x10000
    ensures DecodeFirst(EncodeChar(c) + rest) == Some((c, 3))
  {
    var n := c as int;
    var b := EncodeChar(c) + rest;
    Radix64Digits3(n);
    assert b[0] as int - 0xE0 == n / 4096 && b[1] as int - 0x80 == (n / 64) % 64 && b[2] as int - 0x80 == n % 64;
  }

  lemma DecodeFourBytes(c: char, rest: seq<Byte>)
    requires 0x10000 <= c as int
    ensures DecodeFirst(EncodeChar(c) + rest) == Some((c, 4))
  {
    var n := c as int;
    var b := EncodeChar(c) + rest;
    Radix64Digits4(n);
    assert b[0] as int - 0xF0 == n / 262144 && b[1] as int - 0x80 == (n / 4096) % 64;
    assert b[2] as int - 0x80 == (n / 64) % 64 && b[3] as int - 0x80 == n % 64;
  }

  /** Decoding an encoding gives back the string. */
  lemma {:induction false} DecodeEncode(s: string)
    ensures Decode(Encode(s)) == Some(s)
    decreases |s|
  {
    if |s| > 0 {
      var b := Encode(s);
      var first := EncodeChar(s[0]);
      DecodeFirstEncodeChar(s[0], Encode(s[1..]));
      assert b[|first|..] == Encode(s[1..]);
      DecodeEncode(s[1..]);
      assert s == [s[0]] + s[1..];
    }
  }

  /** A recognised first character is encoded by exactly the bytes it took. */
  lemma EncodeCharDecodeFirst(b: seq<Byte>)
    requires DecodeFirst(b).Some?
    ensures var (c, k) := DecodeFirst(b).value; EncodeChar(c) == b[..k]
  {
    var (c, k) := DecodeFirst(b).value;
    if k == 2 {
      EncodeTwo(b[0], b[1]);
      assert b[..2] == [b[0], b[1]];
    } else if k == 3 {
      EncodeThree(b[0], b[1], b[2]);
      assert b[..3] == [b[0], b[1], b[2]];
    } else if k == 4 {
      EncodeFour(b[0], b[1], b[2], b[3]);
      assert b[..4] == [b[0], b[1], b[2], b[3]];
    }
  }

  lemma EncodeTwo(b0: Byte, b1: Byte)
    requires 0xC2 <= b0 < 0xE0 && IsContinuation(b1)
    ensures var n := (b0 - 0xC0) * 64 + (b1 - 0x80);
      0x80 <= n < 0x800 && EncodeChar(n as char) == [b0, b1]
  {
    FromDigits2(b0 - 0xC0, b1 - 0x80);
  }

  lemma EncodeThree(b0: Byte, b1: Byte, b2: Byte)
    requires 0xE0 <= b0 < 0xF0 && IsContinuation(b1) && IsContinuation(b2)
    requires var n := (b0 - 0xE0) * 4096 + (b1 - 0x80) * 64 + (b2 - 0x80);
      n >= 0x800 && ToChar(n).Some?
    ensures var n := (b0 - 0xE0) * 4096 + (b1 - 0x80) * 64 + (b2 - 0x80);
      EncodeChar(n as char) == [b0, b1, b2]
  {
    FromDigits3(b0 - 0xE0, b1 - 0x80, b2 - 0x80);
  }

  lemma EncodeFour(b0: Byte, b1: Byte, b2: Byte, b3: Byte)
    requires 0xF0 <= b0 < 0xF5 && IsContinuation(b1) && IsContinuation(b2) && IsContinuation(b3)
    requires var n := (b0 - 0xF0) * 262144 + (b1 - 0x80) * 4096 + (b2 - 0x80) * 64 + (b3 - 0x80);
      n >= 0x10000 && ToChar(n).Some?
    ensures var n := (b0 - 0xF0) * 262144 + (b1 - 0x80) * 4096 + (b2 - 0x80) * 64 + (b3 - 0x80);
      EncodeChar(n as char) == [b0, b1, b2, b3]
  {
    FromDigits4(b0 - 0xF0, b1 - 0x80, b2 - 0x80, b3 - 0x80);
  }

  /** A successful decoding is the first character followed by the
      decoding of the bytes after it. */
  lemma DecodeStep(b: seq<Byte>)
    requires |b| > 0 && Decode(b).Some?
    ensures DecodeFirst(b).Some?
    ensures var k := DecodeFirst(b).value.1;
      Decode(b[k..]).Some? && Decode(b).value == [DecodeFirst(b).value.0] + Decode(b[k..]).value
  {
  }

  /** Encoding distributes over a first character. */
  lemma EncodeCons(c: char, rest: string)
    ensures Encode([c] + rest) == EncodeChar(c) + Encode(rest)
  {
    var s := [c] + rest;
    assert s[0] == c && s[1..] == rest;
  }

  /** The bytes of a first character followed by the bytes of the rest. */
  lemma EncodeStep(b: seq<Byte>, c: char, k: nat, rest: string)
    requires k <= |b| && EncodeChar(c) == b[..k] && Encode(rest) == b[k..]
    ensures Encode([c] + rest) == b
  {
    EncodeCons(c, rest);
    assert b[..k] + b[k..] == b;
  }

  /** Every byte string the decoder accepts is the encoding of its result. */
  lemma {:induction false} EncodeDecode(b: seq<Byte>)
    requires Decode(b).Some?
    ensures Encode(Decode(b).value) == b
    decreases |b|
  {
    if |b| > 0 {
      DecodeStep(b);
      var first := DecodeFirst(b).value;
      EncodeCharDecodeFirst(b);
      EncodeDecode(b[first.1..]);
      EncodeStep(b, first.0, first.1, Decode(b[first.1..]).value);
    }
  }
}

=== FILE: wrappers.dfy ===
/** Option and Result, the two failure-carrying datatypes the model uses for
    Swift optionals (`T?`) and for publishers that end in a value or an error. */
module Wrappers {

  datatype Option<+T> = None | Some(value: T) {

    /** The wrapped value, or `default` when absent (Swift's `??`). */
    function GetOr(default: T): T {
      match this
      case Some(v) => v
      case None => default
    }
  }

  datatype Result<+R, +E> = Success(value: R) | Failure(error: E)

  /** Unsigned octets, the element type of Foundation's `Data`. */
  type Byte = b: int | 0 <= b < 256
}
